=== FILE: README.md ===
# pwdsvc data store, modelled in Dafny

This project models the in-memory passwd/group store of the password
service (`pwdsvc/data.py`). It covers:

- how one line of the passwd or group file becomes a record (`PasswordData`,
  `GroupData`, `load_from_list`);
- the per-type search index that `BaseDataType.prepare_search` builds, in
  which the group `members` field is split on `,`;
- the keyed lookup `DataManager.search`;
- the compound query `DataManager.search_with_params`, together with
  `BaseDataType.compare_fields`;
- `init_data_type`, the load loop of `load_data_by_type`, and
  `reload_datatype`, each as a pure state transition.

Modules, in dependency order:

| file | module | contents |
|---|---|---|
| outcomes.dfy | `Outcomes` | `Option`, the store's errors (`QueryError`, `KeyError`, `PathError`), `Result` |
| text.dfy | `Text` | Python's `str.split`, `sep.join`, `str.replace('\n', '')` |
| records.dfy | `Records` | record types, `get_field`, `load_from_list`, line parsing, query criteria, `compare_fields` |
| field_index.dfy | `FieldIndex` | `prepare_search` and the index it builds |
| data_manager.dfy | `DataManager` | per-type datasets, the load loop, reload, `search`, `search_with_params` |
| load_proofs.dfy | `LoadProofs` | what loading and reloading produce, and what `search` returns afterwards |
| query_proofs.dfy | `QueryProofs` | what `search_with_params` returns |

Modelling choices:

- **Record identity.** Every loaded object is an `Item(id, fields)`, and `id`
  is the position of its line. The loader creates one object per line.
  `search_with_params` de-duplicates with `match in ret`. `BaseDataType`
  defines no `__eq__`, so that test is object identity. The model compares ids.
- **Blank objects.** A malformed line still yields an object, with every field
  `''`. `prepare_search` is called outside the if/else (data.py:446), so the
  index registers that blank object. It does not join the record list.
- **Query dictionaries.** A query is a sequence of `Criterion(key, values)`
  with at least one value per key, like a Django `QueryDict`:
  - iterating with `items()`/`iteritems()` yields the last value of a key
    (`Last`);
  - `getlist('member')` yields all of them.

  The order of the sequence is the order in which the dictionary iterates
  its keys. Under Python 2 that is the dictionary's hash order, not the
  order of the query string. The order of the result follows it, and so
  does which error is raised when several keys are faulty. The model takes
  that order as given.
- **The `member` key** seeds from the `members` index. It checks that every
  queried name is one of the group's comma-separated members; extra members
  are allowed. On an account record, `compare_fields` reads the missing
  `members` field and fails with Python's `KeyError`, modelled as
  `Error.KeyError`.
- **File contents** are an input: `FileRead.Lines(lines)`, the list
  `readlines` returns, or `FileRead.Unreadable(cause)`. `Unreadable` stands
  for a `RuntimeError` that reaches the handler at data.py:422-428. That
  handler sets the type's status to `PathError`, and every later `search` and
  `search_with_params` of that type raises it until the next reload.
- **A failure the handler does not catch.** Under Python 2, `open()` of a
  missing or unreadable file raises `IOError`, which is not a `RuntimeError`.
  That exception escapes `load_data_by_type`. During `reload_datatype` it
  escapes after `init_data_type` has already reset the type (data.py:458-459).
  `on_modified` only catches `RuntimeError` (data.py:242-245), so the type
  stays in its reset state: no records, an empty index, no status. In that
  state a search without a key returns `[]`, and every keyed search and every
  non-empty query raises `QueryError`. `LoadProofs.InitDataTypeAnswers`
  states this.

Behaviour of the code worth noting:

- **The index is created lazily.** The first object prepared creates it
  (data.py:117-120). For a zero-line file, every keyed `search` therefore
  raises `QueryError`, even for a valid field name.
- **Malformed lines are indexed**, as blank objects. They are only left out
  of the record list.
- **`search_with_params` with no criteria** returns `[]`: the result starts empty (data.py:302) and the loop over the criteria adds to it.
- **Reload works on the live state.** `reload_datatype` resets the type's
  list, index and status, then loads into those same objects (data.py:448-459).
  A search running between the two steps sees a partly loaded type.
- **A plain `members` key** is seeded from the split index but compared for
  exact equality with the whole field. So a query on `members=a,b` alone
  finds nothing, not even a group whose members are exactly `a,b`
  (`QueryProofs.PlainMembersWithCommaFindsNothing`). The completeness
  theorem `QueryIsConjunction` therefore assumes one seeding key: any key
  other than plain `members`, or plain `members` with a value that holds no
  comma.

## Model

| member | source | states |
|---|---|---|
| Text.StripNewlines | pwdsvc/data.py:436 | the result has no newline, and every other character occurs as often as in the input |
| Text.Split | pwdsvc/data.py:436 | one more piece than there are separators, and no piece contains the separator |
| Text.JoinSplit | pwdsvc/data.py:436 | joining the pieces of a split with the separator gives back the original string |
| Text.SplitJoin | pwdsvc/data.py:436 | splitting a join of separator-free pieces gives back exactly those pieces |
| Text.SplitTrailingSeparator | pwdsvc/data.py:127 | appending the separator to a string splits into the same pieces plus one empty piece at the end |
| Records.GetField | pwdsvc/data.py:48-60 | a value is returned exactly for the field names of the record's type, and `None` for any other name |
| Records.GetFieldTokenPositions | pwdsvc/data.py:48-60 | the value of each field is the token at that field's position in the record's line layout (`TokenPositions`: 0,2,3,4,5,6 for accounts, 0,2,3 for groups) |
| Records.Blank | pwdsvc/data.py:42-46 | a fresh record of a type has every field of that type equal to the empty string |
| Records.LoadFromList | pwdsvc/data.py:155-195 | the token list is accepted exactly when it has 7 (account) or 4 (group) tokens; an accepted record, re-laid out with the dropped token 1, gives back the token list, so positions 0,2,3,4,5,6 (or 0,2,3) land in name, uid, gid, comment, home, shell (or name, gid, members) |
| Records.LoadFromListPositions | pwdsvc/data.py:162-193 | an accepted token list puts token 0 in name, 2 in uid (accounts) or gid (groups), and so on along the position table, read back through `get_field` |
| Records.ParseLineFields | pwdsvc/data.py:436-439 | contract of `ParseLine`: the fields of an accepted line are its colon-separated tokens, newlines removed, at the type's token positions |
| Records.ParseLineAccepts | pwdsvc/data.py:436-439 | a line is accepted exactly when, ignoring newlines, it holds one colon fewer than the type's token count |
| Records.ParseFormatRoundTrip | pwdsvc/data.py:436-439 | parsing a record's passwd/group line, with its newline, gives back the record when no value contains ':' or a newline |
| Records.ParsedLineReformats | pwdsvc/data.py:436-439 | an accepted line, newlines removed, is the layout of its record with the original token 1 at the password position |
| Records.CompareFrom | pwdsvc/data.py:83-108 | the comparison loop fails only with `QueryError` or `KeyError` |
| Records.CompareFieldsSpec | pwdsvc/data.py:74-108 | contract of `CompareFields`: when `compare_fields` returns, its verdict is the conjunction of all criteria: exact equality with the last value for a plain key, and every queried name among the comma-split members for `member`; it raises exactly when an unsupported key comes before any plain mismatch, and then raises the error of the first such key: `KeyError` for `member` on an account, `QueryError` for a plain key that is not a field |
| Records.CompareFieldsOnKnownKeys | pwdsvc/data.py:83-108 | with no unsupported key, `compare_fields` never raises and returns the conjunction |
| FieldIndex.IndexKeys | pwdsvc/data.py:123-141 | an object is registered under at least one value of a key exactly when the key is a field of its type |
| FieldIndex.PrepareSearchKeys | pwdsvc/data.py:117-120 | preparing an object adds the field names of its type to the index and no other key |
| FieldIndex.PrepareSearchLookup | pwdsvc/data.py:110-141 | contract of `PrepareSearch`: preparing an object appends it at the end of each value list, once per occurrence of the value among its values for that field, and changes nothing else |
| FieldIndex.BuildIndexKeys | pwdsvc/data.py:117-120 | an index built from objects of one type has no keys when there are no objects, and exactly the type's fields otherwise |
| FieldIndex.IndexPlainField | pwdsvc/data.py:134-141 | for every field except `members`, the list under a value holds exactly the prepared objects whose field equals that value, in load order |
| FieldIndex.IndexMembership | pwdsvc/data.py:433-446 | contract of `BuildIndex`, the index after preparing objects in order: an object is listed under a field and value exactly when it was prepared and the value is one of its index values for that field |
| FieldIndex.IndexMultiplicity | pwdsvc/data.py:124-133 | among distinct objects, each one appears under a value as often as the value occurs among its index values, e.g. once per occurrence of a name in a group's split members |
| FieldIndex.MembersIndex | pwdsvc/data.py:124-133 | a group is listed under a name in `members` exactly when the name is one of its comma-separated members; no account is listed there |
| FieldIndex.EmptyMemberRegistered | pwdsvc/data.py:127-133 | a group with an empty member list, or one ending in a comma, is listed under the empty name |
| DataManager.ReloadDatatype | pwdsvc/data.py:448-459 | reloading leaves the other type's dataset unchanged; a failed read leaves an empty dataset whose status is the `PathError`; a successful read leaves no status |
| DataManager.Search | pwdsvc/data.py:350-351 | a type with a load error raises that error before anything else |
| DataManager.Absorb | pwdsvc/data.py:321-334 | the inner candidate loop fails only with the errors `compare_fields` can raise |
| DataManager.Gather | pwdsvc/data.py:307-334 | on a type without a load error, the outer loop fails only with `QueryError` or `KeyError` |
| DataManager.SearchWithParams | pwdsvc/data.py:302-307 | a load error is raised first; with no criteria the result is empty |
| LoadProofs.InitDataTypeAnswers | pwdsvc/data.py:280-290 | contract of `InitDataType`: the type becomes empty and the other is unchanged; then a search without a key returns `[]`, and every keyed search and non-empty query raises `QueryError` |
| LoadProofs.LoadDataByTypeSpec | pwdsvc/data.py:405-446 | contract of `LoadDataByType`: only its type changes; a failed read sets `PathError` and keeps the list and index; a successful read keeps the status and appends the file's records to the existing list |
| LoadProofs.LoadLinesAppendsRecords | pwdsvc/data.py:433-440 | the load loop appends to the list it finds, so loading without a reset keeps the old records ahead of the new ones |
| LoadProofs.LoadLineStep | pwdsvc/data.py:433-446 | contract of `LoadLine`, one turn of the loop: the status and the records already listed are kept; a record is added exactly when the line is accepted, and it is that line's parse at that position; each index list grows by the line's object once per occurrence of the value among its index keys, and no other list changes |
| DataManager.LoadLines | pwdsvc/data.py:430-446 | the load loop never changes the type's status |
| LoadProofs.LoadedIndex | pwdsvc/data.py:430-446 | the index of a loaded type is the index of all objects of the file in line order, blank objects of malformed lines included |
| LoadProofs.LoadedRecords | pwdsvc/data.py:433-443 | the record list holds exactly the records of the accepted lines, in strictly increasing line order |
| LoadProofs.SearchAllIsRecords | pwdsvc/data.py:371-372 | `search` without a key, after a reload, returns exactly the accepted records in file order, and no malformed line |
| LoadProofs.WellFormedFileCount | pwdsvc/tests.py:108-115 | a file of well-formed lines yields exactly one record per line |
| LoadProofs.LoadedIndexKeys | pwdsvc/data.py:117-120 | a loaded type's index has no keys for an empty file, and exactly the type's fields otherwise |
| LoadProofs.ReloadedIndex | pwdsvc/data.py:455-459 | after a reload the type has no status, and its index is the index of the file's objects, with exactly the type's fields unless the file is empty |
| LoadProofs.SearchEmptyFile | pwdsvc/data.py:354-370 | after loading an empty file, every keyed `search` raises `QueryError` |
| LoadProofs.SearchUnknownField | pwdsvc/data.py:367-370 | on a non-empty file, a key that is not a field of the type raises `QueryError` |
| LoadProofs.SearchIsLookup | pwdsvc/data.py:356-363 | a keyed `search` for a field returns the index list for the value |
| LoadProofs.SearchPlainField | pwdsvc/data.py:134-141 | searching a field other than `members` returns, in load order, every object whose field equals the value, blank objects included |
| LoadProofs.SearchUnseenValue | pwdsvc/data.py:361-366 | a value no object holds gives an empty list, not an error |
| LoadProofs.SearchMembers | pwdsvc/data.py:124-133 | searching groups by `members` returns a group exactly when the name is one of its split members, once per occurrence |
| LoadProofs.MalformedLineIndexedBlank | pwdsvc/data.py:433-446 | a malformed line's blank object is not among the records, but searching any field for the empty value finds it |
| LoadProofs.RecordFoundByEachField | pwdsvc/data.py:123-141 | every accepted record is found by searching any of its fields for its value, or for any one of its member names |
| LoadProofs.UnreadableIsSticky | pwdsvc/data.py:422-428 | after a failed read, `search` and `search_with_params` of that type raise the `PathError` |
| LoadProofs.ReloadIdempotent | pwdsvc/data.py:448-459 | reloading twice from the same content gives the same store as reloading once |
| LoadProofs.ReloadForgetsPrevious | pwdsvc/data.py:455-459 | after a reload, the type's dataset depends only on what was read, not on the previous state |
| LoadProofs.InitLoadsEachType | pwdsvc/data.py:256-278 | contract of `Init`: at start-up each type's dataset is what a reload of that type from its own file gives, whatever the other file holds |
| QueryProofs.DistinctProperties | pwdsvc/data.py:321-325 | de-duplication keeps identities unique, adds only candidates, and leaves every candidate's identity present |
| QueryProofs.AbsorbIsDistinctPassing | pwdsvc/data.py:321-334 | the inner loop appends the passing candidates in order, skipping every identity already present |
| QueryProofs.GatherIsDistinctPassing | pwdsvc/data.py:307-334 | with every key indexed and no candidate raising, the outer loop yields the passing seeds, each identity once, in seeding order |
| QueryProofs.GatherFailsOnUnknownKey | pwdsvc/data.py:311-315 | a key whose data field is not indexed makes the query raise, whatever precedes it |
| QueryProofs.DataKeyIndexed | pwdsvc/data.py:311-313 | the data field a key reads is a field of the type exactly when the key is a field, or `member` on groups |
| QueryProofs.IndexedQueryIsDistinctPassingSeeds | pwdsvc/data.py:302-336 | on a dataset indexed from objects of its type and queried with supported keys, the query never raises and returns the seeds that satisfy every criterion, each once, in first-seen order |
| QueryProofs.QueryIsDistinctPassingSeeds | pwdsvc/data.py:302-336 | the same, after reloading a non-empty file |
| QueryProofs.SatisfyingIsSeeded | pwdsvc/data.py:311-315 | an object satisfying every criterion is seeded by any key other than plain `members`, and by plain `members` when its value holds no comma |
| QueryProofs.QueryIsConjunction | pwdsvc/data.py:302-336 | after loading a non-empty file and querying with supported keys, at least one of them seeding (not plain `members`, or plain `members` with a value that holds no comma), the result holds each object that satisfies every criterion exactly once, and nothing else |
| QueryProofs.QueryUnknownKeyFails | pwdsvc/data.py:311-315 | a key the type does not support, or any key on an empty file, makes the query raise `QueryError` or `KeyError` |
| QueryProofs.GroupQueryUnknownKeyError | pwdsvc/data.py:292-374 | on a loaded, non-empty group file, a query raises exactly `QueryError` for its first unsupported key in iteration order, whether an earlier key's candidate reaches it in `compare_fields` or `search` rejects it |
| QueryProofs.CommaNameUnlisted | pwdsvc/data.py:124-133 | no group is listed under a name containing a comma |
| QueryProofs.PlainMembersWithCommaFindsNothing | pwdsvc/data.py:311-315 | a query on plain `members` alone, with a value containing a comma, returns an empty list |

## Left out

- File watching (`DataFileEventHandler`, `start_watchdog`, data.py:198-245 and 376-403). This is threads and filesystem events. The `_item_watch` entry that `init_data_type` resets is not modelled either.
- Opening and reading the files (data.py:418-428). The lines are an input. `FileRead.Unreadable` is a `RuntimeError` caught by the handler.
- An exception that escapes the load, such as Python 2's `IOError` from `open()`, is not a `FileRead` case. The state it leaves behind during a reload is stated by `LoadProofs.InitDataTypeAnswers`. The propagation to the caller is not modelled. At start-up this escapes `DataManager()` and the module-level `DATAMGR = DataManager()` (views.py:14).
- String types. Under Python 2, the lines read from the files (data.py:420-421) give byte strings for every field and index key. Query values and URL arguments from Django are unicode strings (views.py:131, 178, 231). A non-ASCII query value therefore never equals a file value in `compare_fields` (data.py:104), and is never found as an index key (data.py:361). The model uses one `string` type for both, so its search and query results hold only when every query value is ASCII.
- Aliasing of results. `search` returns the store's own lists, `lookup[search_value]` (data.py:362) and `self._item_list[...]` (data.py:372), not copies. A caller that mutates the result changes the store. `users_uid_groups` does this: `result_list += ...` (views.py:153-154) extends the index list of the user's gid in place on every request for a user whose gid is some group's gid. When no group has that gid, `search` returns its own fresh empty list (data.py:348, 361-365), and nothing in the store changes. The model returns values, so this cannot be expressed.
- Concurrency. The source mutates shared lists and dicts in place without locks. Only the sequential state transition is modelled.
- The JSON `__repr__` (data.py:62-72), which relies on the `json` library.
- The configured file paths and Django settings (data.py:256-259). The two file contents are parameters of `Init`.
- Logging calls. They have no effect on the results.
- HTTP views, URL routing, the database-backed `models.py`, migrations and `errors.py`. They are outside the data store.
- Records.ParseOrBlank: states only that the object has the line's type. What it holds is stated through `ParseLine` and `Blank`.
- DataManager.Search: its own contract states only that a load error comes first. The other branches are stated by the `LoadProofs.Search*` lemmas for a reloaded type.
- DataManager.LoadLines: its own contract states only that the status is kept. Its records and index are stated by `LoadProofs.LoadedRecords` and `LoadProofs.LoadedIndex`, for a load on top of a fresh dataset, which is how reload uses it.
- The query `?member=AAAA&member=BBBB&gid=999` against the `test_users` group (tests.py:226-229) is not stated separately. It is an instance of `QueryProofs.QueryIsConjunction`, with `gid` as the seeding key.
- QueryProofs.QueryUnknownKeyFails: on accounts it does not say which error is raised. When `member` is the first unsupported key, the error is `KeyError` if an earlier key seeded a candidate, and `QueryError` from `search` otherwise. On groups, `QueryProofs.GroupQueryUnknownKeyError` pins the error.

=== FILE: data_manager.dfy ===
/** `DataManager`: one dataset per record type (loaded objects, search
    index, load status), the load loop, `reload_datatype`, `search` and
    `search_with_params`. The file contents arrive as the list of lines
    `readlines` would return, or as the failure to read them. */
module DataManager {
  import opened Outcomes
  import opened Records
  import opened FieldIndex

  /** The per-type state: `_item_list`, `_item_lookup` and `_item_status`. */
  datatype Dataset = Dataset(records: seq<Item>, index: Index, status: Option<Error>)

  /** The state `init_data_type` leaves behind. */
  const Fresh: Dataset := Dataset([], map[], None)

  /** What reading a source file produced. */
  datatype FileRead = Lines(lines: seq<string>) | Unreadable(cause: string)

  function Other(kind: Kind): Kind
  {
    if kind == Account then Group else Account
  }

  /** The whole store: one dataset per record type. */
  datatype Store = Store(account: Dataset, group: Dataset) {

    function Get(kind: Kind): Dataset
    {
      match kind
      case Account => account
      case Group => group
    }

    function With(kind: Kind, ds: Dataset): (r: Store)
      ensures r.Get(kind) == ds
      ensures r.Get(Other(kind)) == Get(Other(kind))
    {
      match kind
      case Account => this.(account := ds)
      case Group => this.(group := ds)
    }
  }

  /** `init_data_type`: reset one type's list, index and status. */
  function InitDataType(store: Store, kind: Kind): Store
  {
    store.With(kind, Fresh)
  }

  /** One turn of the load loop: the line at position `pos` becomes a new
      object (blank when the line is malformed), which joins the record list
      only when the line parsed, and is registered in the index either way. */
  function LoadLine(ds: Dataset, kind: Kind, pos: nat, line: string): Dataset
  {
    var item := Item(pos, ParseOrBlank(kind, line));
    var records := if ParseLine(kind, line).Some? then ds.records + [item] else ds.records;
    Dataset(records, PrepareSearch(ds.index, item), ds.status)
  }

  /** The load loop over all lines, in file order, on top of `ds`. */
  function LoadLines(ds: Dataset, kind: Kind, lines: seq<string>): (r: Dataset)
    ensures r.status == ds.status
    decreases |lines|
  {
    if |lines| == 0 then ds
    else LoadLine(LoadLines(ds, kind, lines[..|lines| - 1]), kind, |lines| - 1, lines[|lines| - 1])
  }

  /** `load_data_by_type`: a failed read records the error as the type's
      status and loads nothing; otherwise every line is loaded into the
      type's current list and index. */
  function LoadDataByType(store: Store, kind: Kind, read: FileRead): Store
  {
    var ds := store.Get(kind);
    match read
    case Unreadable(cause) => store.With(kind, ds.(status := Some(PathError(cause))))
    case Lines(lines) => store.With(kind, LoadLines(ds, kind, lines))
  }

  /** `reload_datatype`: reset the type, then load it again. */
  function ReloadDatatype(store: Store, kind: Kind, read: FileRead): (r: Store)
    ensures r.Get(Other(kind)) == store.Get(Other(kind))
    ensures read.Unreadable? ==> r.Get(kind) == Dataset([], map[], Some(PathError(read.cause)))
    ensures read.Lines? ==> r.Get(kind).status == None
  {
    var reset := InitDataType(store, kind);
    assert reset.Get(kind) == Fresh;
    LoadDataByType(reset, kind, read)
  }

  /** `DataManager.__init__` without the watchers: both types start empty
      and are loaded, accounts first. */
  function Init(accountRead: FileRead, groupRead: FileRead): Store
  {
    var empty := Store(Fresh, Fresh);
    LoadDataByType(LoadDataByType(empty, Account, accountRead), Group, groupRead)
  }

  /** `DataManager.search`. A load error is raised first; with no key the
      record list is returned; a key the index does not know raises
      `QueryError`; an unseen value gives an empty list. */
  function Search(store: Store, kind: Kind, key: Option<string>, value: Option<string>): (r: Result<seq<Item>>)
    ensures store.Get(kind).status.Some? ==> r == Fail(store.Get(kind).status.value)
  {
    var ds := store.Get(kind);
    if ds.status.Some? then Fail(ds.status.value)
    else
      match key
      case None => Ok(ds.records)
      case Some(k) =>
        if k !in ds.index then Fail(QueryError(k))
        else
          match value
          case None => Ok([])
          case Some(v) => Ok(if v in ds.index[k] then ds.index[k][v] else [])
  }

  /** The index field searched for a query key: `member` reads `members`. */
  function DataKey(key: string): string
  {
    if key == "member" then "members" else key
  }

  /** Whether an object with identity `id` is already in `s`. */
  predicate HasId(s: seq<Item>, id: nat)
  {
    exists j :: 0 <= j < |s| && s[j].id == id
  }

  /** The inner loop of `search_with_params` over the candidates of one
      key: a candidate already in the result is skipped; otherwise it is
      checked against the whole query and appended when it passes. */
  function Absorb(cands: seq<Item>, crit: seq<Criterion>, ret: seq<Item>): (r: Result<seq<Item>>)
    ensures r.Fail? ==> r.error.QueryError? || r.error.KeyError?
    decreases |cands|
  {
    if |cands| == 0 then Ok(ret)
    else
      var m := cands[0];
      if HasId(ret, m.id) then Absorb(cands[1..], crit, ret)
      else
        match CompareFields(m.fields, crit)
        case Fail(e) => Fail(e)
        case Ok(pass) => Absorb(cands[1..], crit, if pass then ret + [m] else ret)
  }

  /** The outer loop of `search_with_params` from key `i` on: each key
      seeds candidates from the index of its data field and its (last)
      value. */
  function Gather(store: Store, kind: Kind, crit: seq<Criterion>, i: nat, ret: seq<Item>): (r: Result<seq<Item>>)
    requires i <= |crit|
    ensures r.Fail? && store.Get(kind).status.None? ==> r.error.QueryError? || r.error.KeyError?
    decreases |crit| - i
  {
    if i == |crit| then Ok(ret)
    else
      var c := crit[i];
      match Search(store, kind, Some(DataKey(c.key)), Some(Last(c)))
      case Fail(e) => Fail(e)
      case Ok(matches) =>
        match Absorb(matches, crit, ret)
        case Fail(e) => Fail(e)
        case Ok(ret') => Gather(store, kind, crit, i + 1, ret')
  }

  /** `DataManager.search_with_params`. */
  function SearchWithParams(store: Store, kind: Kind, crit: seq<Criterion>): (r: Result<seq<Item>>)
    ensures store.Get(kind).status.Some? ==> r == Fail(store.Get(kind).status.value)
    ensures store.Get(kind).status.None? && |crit| == 0 ==> r == Ok([])
  {
    var ds := store.Get(kind);
    if ds.status.Some? then Fail(ds.status.value)
    else Gather(store, kind, crit, 0, [])
  }
}

=== FILE: field_index.dfy ===
/** The per-type search index built by `BaseDataType.prepare_search`: for
    each field name, a map from a value to the loaded objects holding it, in
    load order. The `members` field is registered once per comma-separated
    piece of its value. */
module FieldIndex {
  import opened Outcomes
  import opened Text
  import opened Records

  type Index = map<string, map<string, seq<Item>>>

  /** The objects registered under `key` = `value`; none when either is
      absent. */
  function Lookup(idx: Index, key: string, value: string): seq<Item>
  {
    if key in idx && value in idx[key] then idx[key][value] else []
  }

  /** The values under which a record is registered for field `key`: the
      comma-separated pieces for `members`, the value itself for any other
      field, nothing for a name that is not a field. */
  function IndexKeys(f: Fields, key: string): (ks: seq<string>)
    ensures |ks| > 0 <==> key in FieldNames(KindOf(f))
  {
    match GetField(f, key)
    case None => []
    case Some(v) => if key == "members" then Split(v, ',') else [v]
  }

  /** An index with every field of `kind` present and nothing registered. */
  function InitLookup(kind: Kind): Index
  {
    map key | key in FieldNames(kind) :: map[]
  }

  /** Append `item` to the list under `key` = `value`, creating it lazily. */
  function Append(idx: Index, key: string, value: string, item: Item): Index
  {
    var inner := if key in idx then idx[key] else map[];
    var list := if value in inner then inner[value] else [];
    idx[key := inner[value := list + [item]]]
  }

  /** Register `item` under `key` once for each of `values`, in order. */
  function RegisterValues(idx: Index, key: string, values: seq<string>, item: Item): Index
    decreases |values|
  {
    if |values| == 0 then idx
    else RegisterValues(Append(idx, key, values[0], item), key, values[1..], item)
  }

  /** Register `item` under each field name of `names`, in order. */
  function RegisterFields(idx: Index, item: Item, names: seq<string>): Index
    decreases |names|
  {
    if |names| == 0 then idx
    else RegisterFields(RegisterValues(idx, names[0], IndexKeys(item.fields, names[0]), item), item, names[1..])
  }

  /** `prepare_search`: an empty index first receives every field name of
      the item's type; then the item is registered under each field. */
  function PrepareSearch(idx: Index, item: Item): Index
  {
    var kind := KindOf(item.fields);
    var base := if |idx| == 0 then InitLookup(kind) else idx;
    RegisterFields(base, item, FieldNames(kind))
  }

  lemma {:induction false} InitLookupKeys(kind: Kind)
    ensures InitLookup(kind).Keys == FieldSet(kind)
  {
  }

  lemma {:induction false} RegisterValuesKeys(idx: Index, key: string, values: seq<string>, item: Item)
    ensures RegisterValues(idx, key, values, item).Keys == idx.Keys + (if |values| > 0 then {key} else {})
    decreases |values|
  {
    if |values| > 0 {
      RegisterValuesKeys(Append(idx, key, values[0], item), key, values[1..], item);
    }
  }

  lemma {:induction false} RegisterFieldsKeys(idx: Index, item: Item, names: seq<string>)
    ensures forall k :: k in RegisterFields(idx, item, names) <==>
                        k in idx || (k in names && |IndexKeys(item.fields, k)| > 0)
    decreases |names|
  {
    if |names| > 0 {
      var idx' := RegisterValues(idx, names[0], IndexKeys(item.fields, names[0]), item);
      RegisterValuesKeys(idx, names[0], IndexKeys(item.fields, names[0]), item);
      RegisterFieldsKeys(idx', item, names[1..]);
      assert forall n :: n in names <==> n == names[0] || n in names[1..];
    }
  }

  /** Preparing an object adds every field name of its type to the index
      and no other key. */
  lemma {:induction false} PrepareSearchKeys(idx: Index, item: Item)
    ensures PrepareSearch(idx, item).Keys == idx.Keys + FieldSet(KindOf(item.fields))
  {
    var kind := KindOf(item.fields);
    var base := if |idx| == 0 then InitLookup(kind) else idx;
    InitLookupKeys(kind);
    RegisterFieldsKeys(base, item, FieldNames(kind));
    forall k
      ensures k in PrepareSearch(idx, item) <==> k in idx.Keys + FieldSet(kind)
    {
      if k in FieldNames(kind) {
        assert |IndexKeys(item.fields, k)| > 0;
      }
    }
  }

  /** The index obtained by preparing `items` one after another. */
  function BuildIndex(items: seq<Item>): Index
  {
    if |items| == 0 then map[]
    else PrepareSearch(BuildIndex(items[..|items| - 1]), items[|items| - 1])
  }

  lemma {:induction false} RepeatAdd<T>(x: T, a: nat, b: nat)
    ensures Repeat(x, a) + Repeat(x, b) == Repeat(x, a + b)
  {
  }

  lemma {:induction false} AppendLookup(idx: Index, key: string, value: string, item: Item, k: string, v: string)
    ensures Lookup(Append(idx, key, value, item), k, v) ==
            Lookup(idx, k, v) + (if k == key && v == value then [item] else [])
  {
  }

  lemma {:induction false} RegisterValuesLookup(idx: Index, key: string, values: seq<string>, item: Item, k: string, v: string)
    ensures Lookup(RegisterValues(idx, key, values, item), k, v) ==
            Lookup(idx, k, v) + (if k == key then Repeat(item, Count(values, v)) else [])
    decreases |values|
  {
    if |values| > 0 {
      var idx' := Append(idx, key, values[0], item);
      AppendLookup(idx, key, values[0], item, k, v);
      RegisterValuesLookup(idx', key, values[1..], item, k, v);
      if k == key {
        var c0 := if values[0] == v then 1 else 0;
        assert (if v == values[0] then [item] else []) == Repeat(item, c0);
        RepeatAdd(item, c0, Count(values[1..], v));
      }
    }
  }

  lemma {:induction false} RegisterFieldsLookup(idx: Index, item: Item, names: seq<string>, k: string, v: string)
    requires forall i, j :: 0 <= i < j < |names| ==> names[i] != names[j]
    ensures Lookup(RegisterFields(idx, item, names), k, v) ==
            Lookup(idx, k, v) + (if k in names then Repeat(item, Count(IndexKeys(item.fields, k), v)) else [])
    decreases |names|
  {
    if |names| > 0 {
      var idx' := RegisterValues(idx, names[0], IndexKeys(item.fields, names[0]), item);
      RegisterValuesLookup(idx, names[0], IndexKeys(item.fields, names[0]), item, k, v);
      RegisterFieldsLookup(idx', item, names[1..], k, v);
      if k == names[0] {
        assert k !in names[1..];
      }
      assert k in names <==> k == names[0] || k in names[1..];
    }
  }

  /** Preparing one item appends it, at the end, to every list it belongs
      to: once per occurrence of the value among its index keys. */
  lemma {:induction false} PrepareSearchLookup(idx: Index, item: Item, k: string, v: string)
    ensures Lookup(PrepareSearch(idx, item), k, v) ==
            Lookup(idx, k, v) + Repeat(item, Count(IndexKeys(item.fields, k), v))
  {
    var kind := KindOf(item.fields);
    var base := if |idx| == 0 then InitLookup(kind) else idx;
    assert Lookup(base, k, v) == Lookup(idx, k, v);
    RegisterFieldsLookup(base, item, FieldNames(kind), k, v);
  }

  /** The field names of an index built from objects of one type: none for
      no objects (the index is only initialised by the first item), every
      field of the type otherwise. */
  lemma {:induction false} BuildIndexKeys(items: seq<Item>, kind: Kind)
    requires forall i :: 0 <= i < |items| ==> KindOf(items[i].fields) == kind
    ensures BuildIndex(items).Keys == if |items| == 0 then {} else FieldSet(kind)
  {
    if |items| > 0 {
      BuildIndexKeys(items[..|items| - 1], kind);
      PrepareSearchKeys(BuildIndex(items[..|items| - 1]), items[|items| - 1]);
    }
  }

  /** Reference definition: the elements of `s` satisfying `p`, in order. */
  function Filter<T>(s: seq<T>, p: T -> bool): seq<T>
  {
    if |s| == 0 then [] else (if p(s[0]) then [s[0]] else []) + Filter(s[1..], p)
  }

  lemma {:induction false} FilterAppend<T>(a: seq<T>, b: seq<T>, p: T -> bool)
    ensures Filter(a + b, p) == Filter(a, p) + Filter(b, p)
  {
    if |a| == 0 {
      assert a + b == b;
    } else {
      assert (a + b)[0] == a[0];
      assert (a + b)[1..] == a[1..] + b;
      FilterAppend(a[1..], b, p);
      var h := if p(a[0]) then [a[0]] else [];
      assert Filter(a + b, p) == h + (Filter(a[1..], p) + Filter(b, p));
      assert Filter(a, p) == h + Filter(a[1..], p);
    }
  }

  /** The objects, in order, whose field `key` is exactly `value`. */
  function Holding(items: seq<Item>, key: string, value: string): seq<Item>
  {
    Filter(items, (x: Item) => GetField(x.fields, key) == Some(value))
  }

  /** For every field other than `members`, the index lists exactly the
      objects holding the value, in load order. */
  lemma {:induction false} IndexPlainField(items: seq<Item>, key: string, value: string)
    requires key != "members"
    ensures Lookup(BuildIndex(items), key, value) == Holding(items, key, value)
  {
    if |items| > 0 {
      var n := |items| - 1;
      var last := items[n];
      var prefix := items[..n];
      assert items == prefix + [last];
      var before := BuildIndex(prefix);
      assert BuildIndex(items) == PrepareSearch(before, last);
      IndexPlainField(prefix, key, value);
      PrepareSearchLookup(before, last, key, value);
      FilterAppend(prefix, [last], (x: Item) => GetField(x.fields, key) == Some(value));
      PlainKeyRepeat(last, key, value);
    }
  }

  lemma {:induction false} PlainKeyRepeat(x: Item, key: string, value: string)
    requires key != "members"
    ensures Repeat(x, Count(IndexKeys(x.fields, key), value)) == Holding([x], key, value)
  {
    var p := (y: Item) => GetField(y.fields, key) == Some(value);
    assert [x][1..] == [];
    assert Holding([x], key, value) == (if p(x) then [x] else []) + Filter([], p);
    match GetField(x.fields, key)
    case None =>
    case Some(v) =>
      assert IndexKeys(x.fields, key) == [v];
      assert Count([v], value) == if v == value then 1 else 0 by {
        assert [v][1..] == [];
      }
  }

  /** An object is listed under `key` = `value` exactly when it was
      prepared and `value` is one of its index keys for `key`. */
  lemma {:induction false} IndexMembership(items: seq<Item>, key: string, value: string, x: Item)
    ensures x in Lookup(BuildIndex(items), key, value) <==> x in items && value in IndexKeys(x.fields, key)
  {
    if |items| > 0 {
      var n := |items| - 1;
      var last := items[n];
      var prefix := items[..n];
      assert items == prefix + [last];
      var before := BuildIndex(prefix);
      assert BuildIndex(items) == PrepareSearch(before, last);
      IndexMembership(prefix, key, value, x);
      PrepareSearchLookup(before, last, key, value);
      var ks := IndexKeys(last.fields, key);
      var c := Count(ks, value);
      var old_list := Lookup(before, key, value);
      assert Lookup(BuildIndex(items), key, value) == old_list + Repeat(last, c);
      assert x in old_list + Repeat(last, c) <==> x in old_list || x in Repeat(last, c);
      RepeatMembership(last, c, x);
      assert x in items <==> x in prefix || x == last;
    }
  }

  /** No element occurs twice. */
  predicate NoRepeats<T(==)>(s: seq<T>)
  {
    forall i, j :: 0 <= i < j < |s| ==> s[i] != s[j]
  }

  lemma {:induction false} NoRepeatsPrefix<T>(s: seq<T>, n: nat)
    requires NoRepeats(s) && n < |s|
    ensures NoRepeats(s[..n]) && s[n] !in s[..n]
  {
  }

  /** With distinct objects, each appears once per occurrence of the value
      among its index keys: a group once per occurrence of a name in its
      comma-split members. */
  lemma {:induction false} IndexMultiplicity(items: seq<Item>, key: string, value: string, x: Item)
    requires NoRepeats(items)
    ensures multiset(Lookup(BuildIndex(items), key, value))[x] ==
            if x in items then Count(IndexKeys(x.fields, key), value) else 0
  {
    if |items| > 0 {
      var n := |items| - 1;
      var last := items[n];
      var prefix := items[..n];
      assert items == prefix + [last];
      var before := BuildIndex(prefix);
      assert BuildIndex(items) == PrepareSearch(before, last);
      NoRepeatsPrefix(items, n);
      IndexMultiplicity(prefix, key, value, x);
      PrepareSearchLookup(before, last, key, value);
      var c := Count(IndexKeys(last.fields, key), value);
      MultiplicityAfterRepeat(Lookup(before, key, value), last, c, x);
      assert x in items <==> x in prefix || x == last;
    }
  }

  lemma {:induction false} MultiplicityAfterRepeat<T>(a: seq<T>, y: T, c: nat, x: T)
    ensures multiset(a + Repeat(y, c))[x] == multiset(a)[x] + if x == y then c else 0
  {
    RepeatMultiplicity(y, c, x);
  }

  lemma {:induction false} RepeatMembership<T>(y: T, c: nat, x: T)
    ensures x in Repeat(y, c) <==> x == y && c > 0
  {
    if c > 0 {
      assert Repeat(y, c)[0] == y;
    }
  }

  lemma {:induction false} RepeatMultiplicity<T>(y: T, c: nat, x: T)
    ensures multiset(Repeat(y, c))[x] == if x == y then c else 0
  {
    if c > 0 {
      RepeatMultiplicity(y, c - 1, x);
      assert Repeat(y, c) == Repeat(y, c - 1) + [y];
    }
  }

  /** The index keys of a group's `members` field are its comma-split
      members; an account has none. */
  lemma {:induction false} MembersKeys(f: Fields)
    ensures IndexKeys(f, "members") == if f.GroupFields? then Split(f.members, ',') else []
  {
    if f.GroupFields? {
      assert GetField(f, "members") == Some(f.members);
    }
  }

  /** The `members` field of the index: a group is listed under a name
      exactly when the name is one of its comma-separated members. */
  lemma {:induction false} MembersIndex(items: seq<Item>, name: string, x: Item)
    ensures x in Lookup(BuildIndex(items), "members", name) <==>
            x in items && x.fields.GroupFields? && name in Split(x.fields.members, ',')
  {
    IndexMembership(items, "members", name, x);
    MembersKeys(x.fields);
  }

  /** A group with no members, or whose member list ends in a comma, is
      listed under the empty name. */
  lemma {:induction false} EmptyMemberRegistered(items: seq<Item>, x: Item)
    requires x in items && x.fields.GroupFields?
    requires var m := x.fields.members; m == "" || m[|m| - 1] == ','
    ensures x in Lookup(BuildIndex(items), "members", "")
  {
    var m := x.fields.members;
    if m == "" {
      assert Split(m, ',') == [""];
    } else {
      assert m == m[..|m| - 1] + [','];
      SplitTrailingSeparator(m[..|m| - 1], ',');
      assert "" in Split(m, ',');
    }
    MembersIndex(items, "", x);
  }
}

=== FILE: load_proofs.dfy ===
/** What loading and reloading a type produce, and what `search` returns on
    the result. */
module LoadProofs {
  import opened Outcomes
  import opened Text
  import opened Records
  import opened FieldIndex
  import opened DataManager

  /** Every object the load loop creates, one per line, in file order:
      the parsed record, or the blank record for a malformed line. */
  function Items(kind: Kind, lines: seq<string>): seq<Item>
  {
    seq(|lines|, i requires 0 <= i < |lines| => Item(i, ParseOrBlank(kind, lines[i])))
  }

  /** `x` is the record parsed from the line at position `x.id`. */
  predicate IsRecordOf(kind: Kind, lines: seq<string>, x: Item)
  {
    x.id < |lines| && ParseLine(kind, lines[x.id]) == Some(x.fields)
  }

  /** `init_data_type` empties one type and keeps the other. In that state a
      search without a key returns no records, and every keyed search and
      every non-empty query raises `QueryError`, since the index has no
      field yet. */
  lemma {:induction false} InitDataTypeAnswers(store: Store, kind: Kind, key: string, value: Option<string>, crit: seq<Criterion>)
    ensures var s := InitDataType(store, kind);
      && s.Get(kind) == Fresh
      && s.Get(Other(kind)) == store.Get(Other(kind))
      && Search(s, kind, None, value) == Ok([])
      && Search(s, kind, Some(key), value) == Fail(QueryError(key))
      && (|crit| > 0 ==> SearchWithParams(s, kind, crit) == Fail(QueryError(DataKey(crit[0].key))))
  {
  }

  /** The load loop appends the records of its lines to the list already
      there. */
  lemma {:induction false} LoadLinesAppendsRecords(ds: Dataset, kind: Kind, lines: seq<string>)
    ensures LoadLines(ds, kind, lines).records == ds.records + LoadLines(Fresh, kind, lines).records
    decreases |lines|
  {
    if |lines| > 0 {
      LoadLinesAppendsRecords(ds, kind, lines[..|lines| - 1]);
    }
  }

  /** `load_data_by_type` changes only its own type. A failed read records
      the error and leaves the list and index as they were; a successful
      read keeps the status and appends the records of the file to the
      list. */
  lemma {:induction false} LoadDataByTypeSpec(store: Store, kind: Kind, read: FileRead)
    ensures var r := LoadDataByType(store, kind, read);
      && r.Get(Other(kind)) == store.Get(Other(kind))
      && (read.Unreadable? ==> r.Get(kind) == store.Get(kind).(status := Some(PathError(read.cause))))
      && (read.Lines? ==>
            && r.Get(kind).status == store.Get(kind).status
            && r.Get(kind).records == store.Get(kind).records + LoadLines(Fresh, kind, read.lines).records)
  {
    if read.Lines? {
      LoadLinesAppendsRecords(store.Get(kind), kind, read.lines);
    }
  }

  /** The dataset a reload leaves for a type, whatever the store held. */
  lemma {:induction false} ReloadedDataset(store: Store, kind: Kind, lines: seq<string>)
    ensures ReloadDatatype(store, kind, Lines(lines)).Get(kind) == LoadLines(Fresh, kind, lines)
  {
    var reset := InitDataType(store, kind);
    assert reset.Get(kind) == Fresh;
  }

  lemma {:induction false} ItemsPrefix(kind: Kind, lines: seq<string>, n: nat)
    requires n <= |lines|
    ensures Items(kind, lines[..n]) == Items(kind, lines)[..n]
  {
  }

  /** The index of a loaded type is the index of all its objects, records
      and blanks alike. */
  lemma {:induction false} LoadedIndex(kind: Kind, lines: seq<string>)
    ensures LoadLines(Fresh, kind, lines).index == BuildIndex(Items(kind, lines))
  {
    if |lines| > 0 {
      var n := |lines| - 1;
      var prefix := lines[..n];
      var prev := LoadLines(Fresh, kind, prefix);
      var item := Item(n, ParseOrBlank(kind, lines[n]));
      assert LoadLines(Fresh, kind, lines) == LoadLine(prev, kind, n, lines[n]);
      assert LoadLines(Fresh, kind, lines).index == PrepareSearch(prev.index, item);
      LoadedIndex(kind, prefix);
      ItemsPrefix(kind, lines, n);
      var items := Items(kind, lines);
      assert items[n] == item;
      assert BuildIndex(items) == PrepareSearch(BuildIndex(items[..n]), items[n]);
    }
  }

  /** The record list after one more line. */
  lemma {:induction false} LoadedRecordsStep(kind: Kind, lines: seq<string>)
    requires |lines| > 0
    ensures var n := |lines| - 1;
      LoadLines(Fresh, kind, lines).records ==
      LoadLines(Fresh, kind, lines[..n]).records +
      (if ParseLine(kind, lines[n]).Some? then [Item(n, ParseOrBlank(kind, lines[n]))] else [])
  {
  }

  /** One turn of the load loop keeps the status and the records already
      listed, adds at most one record, the one parsed from this line, and
      registers the line's object once per occurrence of `v` among its index
      keys for `k`, leaving every other index list as it was. */
  lemma {:induction false} LoadLineStep(ds: Dataset, kind: Kind, pos: nat, line: string, k: string, v: string)
    ensures var r := LoadLine(ds, kind, pos, line);
      r.status == ds.status &&
      |ds.records| <= |r.records| <= |ds.records| + 1 &&
      r.records[..|ds.records|] == ds.records &&
      (|r.records| == |ds.records| + 1 <==> ParseLine(kind, line).Some?)
    ensures var r := LoadLine(ds, kind, pos, line);
      |r.records| == |ds.records| + 1 ==>
        r.records[|ds.records|].id == pos && ParseLine(kind, line) == Some(r.records[|ds.records|].fields)
    ensures var item := Item(pos, ParseOrBlank(kind, line));
      Lookup(LoadLine(ds, kind, pos, line).index, k, v) ==
      Lookup(ds.index, k, v) + Repeat(item, Count(IndexKeys(item.fields, k), v))
  {
    PrepareSearchLookup(ds.index, Item(pos, ParseOrBlank(kind, line)), k, v);
  }

  lemma {:induction false} RecordOfPrefix(kind: Kind, lines: seq<string>, n: nat, x: Item)
    requires n <= |lines|
    ensures IsRecordOf(kind, lines[..n], x) <==> x.id < n && IsRecordOf(kind, lines, x)
  {
    if x.id < n {
      assert lines[..n][x.id] == lines[x.id];
    }
  }

  /** The record list of a loaded type holds exactly the records of the
      accepted lines. */
  lemma {:induction false} LoadedRecordsMembership(kind: Kind, lines: seq<string>, x: Item)
    ensures x in LoadLines(Fresh, kind, lines).records <==> IsRecordOf(kind, lines, x)
  {
    if |lines| > 0 {
      var n := |lines| - 1;
      LoadedRecordsStep(kind, lines);
      LoadedRecordsMembership(kind, lines[..n], x);
      RecordOfPrefix(kind, lines, n, x);
      var item := Item(n, ParseOrBlank(kind, lines[n]));
      if IsRecordOf(kind, lines, x) && x.id == n {
        assert x == item;
      }
    }
  }

  /** Identities strictly increase along `s`: file order. */
  predicate IdsIncreasing(s: seq<Item>)
  {
    forall i, j :: 0 <= i < j < |s| ==> s[i].id < s[j].id
  }

  lemma {:induction false} IdsIncreasingAppend(s: seq<Item>, x: Item)
    requires IdsIncreasing(s)
    requires forall k :: 0 <= k < |s| ==> s[k].id < x.id
    ensures IdsIncreasing(s + [x])
  {
  }

  /** ... in file order. */
  lemma {:induction false} LoadedRecordsOrdered(kind: Kind, lines: seq<string>)
    ensures IdsIncreasing(LoadLines(Fresh, kind, lines).records)
  {
    if |lines| > 0 {
      var n := |lines| - 1;
      LoadedRecordsStep(kind, lines);
      LoadedRecordsOrdered(kind, lines[..n]);
      var prev := LoadLines(Fresh, kind, lines[..n]).records;
      forall k | 0 <= k < |prev|
        ensures prev[k].id < n
      {
        LoadedRecordsMembership(kind, lines[..n], prev[k]);
      }
      if ParseLine(kind, lines[n]).Some? {
        IdsIncreasingAppend(prev, Item(n, ParseOrBlank(kind, lines[n])));
      } else {
        assert prev + [] == prev;
      }
    }
  }

  lemma {:induction false} LoadedRecords(kind: Kind, lines: seq<string>)
    ensures var rs := LoadLines(Fresh, kind, lines).records;
      && IdsIncreasing(rs)
      && (forall x :: x in rs <==> IsRecordOf(kind, lines, x))
  {
    LoadedRecordsOrdered(kind, lines);
    forall x
      ensures x in LoadLines(Fresh, kind, lines).records <==> IsRecordOf(kind, lines, x)
    {
      LoadedRecordsMembership(kind, lines, x);
    }
  }

  /** `search` without a key returns exactly the accepted records, in file
      order; malformed lines are absent. */
  lemma {:induction false} SearchAllIsRecords(store: Store, kind: Kind, lines: seq<string>, value: Option<string>)
    ensures var r := Search(ReloadDatatype(store, kind, Lines(lines)), kind, None, value);
      && r.Ok?
      && IdsIncreasing(r.value)
      && (forall x :: x in r.value <==> IsRecordOf(kind, lines, x))
  {
    ReloadedDataset(store, kind, lines);
    LoadedRecords(kind, lines);
  }

  /** A file whose every line is well formed yields one record per line. */
  lemma {:induction false} WellFormedFileCount(kind: Kind, lines: seq<string>)
    requires forall i :: 0 <= i < |lines| ==> ParseLine(kind, lines[i]).Some?
    ensures |LoadLines(Fresh, kind, lines).records| == |lines|
  {
    if |lines| > 0 {
      WellFormedFileCount(kind, lines[..|lines| - 1]);
    }
  }

  /** The keys of a loaded type's index: none for an empty file, every
      field of the type otherwise. */
  lemma {:induction false} LoadedIndexKeys(kind: Kind, lines: seq<string>)
    ensures LoadLines(Fresh, kind, lines).index.Keys == if |lines| == 0 then {} else FieldSet(kind)
  {
    LoadedIndex(kind, lines);
    BuildIndexKeys(Items(kind, lines), kind);
  }

  /** A reload's dataset for the type: no error, the index built from the
      file's objects, holding every field of the type unless the file is
      empty. */
  lemma {:induction false} ReloadedIndex(store: Store, kind: Kind, lines: seq<string>)
    ensures var ds := ReloadDatatype(store, kind, Lines(lines)).Get(kind);
      && ds.status.None?
      && ds.index == BuildIndex(Items(kind, lines))
      && ds.index.Keys == if |lines| == 0 then {} else FieldSet(kind)
  {
    ReloadedDataset(store, kind, lines);
    LoadedIndexKeys(kind, lines);
    LoadedIndex(kind, lines);
  }

  /** For an empty file every keyed search raises `QueryError`, because the
      index is only initialised by the first object. */
  lemma {:induction false} SearchEmptyFile(store: Store, kind: Kind, key: string, value: Option<string>)
    ensures Search(ReloadDatatype(store, kind, Lines([])), kind, Some(key), value) == Fail(QueryError(key))
  {
  }

  /** On a non-empty file, a key that is not a field of the type raises
      `QueryError`. */
  lemma {:induction false} SearchUnknownField(store: Store, kind: Kind, lines: seq<string>, key: string, value: Option<string>)
    requires |lines| > 0
    requires key !in FieldNames(kind)
    ensures Search(ReloadDatatype(store, kind, Lines(lines)), kind, Some(key), value) == Fail(QueryError(key))
  {
    ReloadedDataset(store, kind, lines);
    LoadedIndexKeys(kind, lines);
  }

  /** The search result for a field and value is the index list. */
  lemma {:induction false} SearchIsLookup(store: Store, kind: Kind, lines: seq<string>, key: string, value: string)
    requires |lines| > 0
    requires key in FieldNames(kind)
    ensures Search(ReloadDatatype(store, kind, Lines(lines)), kind, Some(key), Some(value)) ==
            Ok(Lookup(BuildIndex(Items(kind, lines)), key, value))
  {
    ReloadedDataset(store, kind, lines);
    LoadedIndexKeys(kind, lines);
    LoadedIndex(kind, lines);
  }

  /** For a field other than `members`, `search` returns, in load order,
      every object whose field equals the value, blank objects of malformed
      lines included; an unseen value gives an empty list, not an error. */
  lemma {:induction false} SearchPlainField(store: Store, kind: Kind, lines: seq<string>, key: string, value: string)
    requires |lines| > 0
    requires key in FieldNames(kind) && key != "members"
    ensures Search(ReloadDatatype(store, kind, Lines(lines)), kind, Some(key), Some(value)) ==
            Ok(Holding(Items(kind, lines), key, value))
  {
    SearchIsLookup(store, kind, lines, key, value);
    IndexPlainField(Items(kind, lines), key, value);
  }

  lemma {:induction false} FilterNone<T>(s: seq<T>, p: T -> bool)
    requires forall i :: 0 <= i < |s| ==> !p(s[i])
    ensures Filter(s, p) == []
  {
    if |s| > 0 {
      FilterNone(s[1..], p);
    }
  }

  /** A field value no object holds gives an empty list, not an error. */
  lemma {:induction false} SearchUnseenValue(store: Store, kind: Kind, lines: seq<string>, key: string, value: string)
    requires |lines| > 0
    requires key in FieldNames(kind) && key != "members"
    requires forall i :: 0 <= i < |lines| ==> GetField(ParseOrBlank(kind, lines[i]), key) != Some(value)
    ensures Search(ReloadDatatype(store, kind, Lines(lines)), kind, Some(key), Some(value)) == Ok([])
  {
    SearchPlainField(store, kind, lines, key, value);
    FilterNone(Items(kind, lines), (x: Item) => GetField(x.fields, key) == Some(value));
  }

  /** Searching groups by `members` finds a group exactly when the name is
      one of its comma-separated members, once per occurrence. */
  lemma {:induction false} SearchMembers(store: Store, lines: seq<string>, name: string, x: Item)
    requires |lines| > 0
    ensures var r := Search(ReloadDatatype(store, Group, Lines(lines)), Group, Some("members"), Some(name));
      && r.Ok?
      && (x in r.value <==> x in Items(Group, lines) && name in Split(x.fields.members, ','))
      && multiset(r.value)[x] == if x in Items(Group, lines) then Count(Split(x.fields.members, ','), name) else 0
  {
    var items := Items(Group, lines);
    SearchIsLookup(store, Group, lines, "members", name);
    var list := Lookup(BuildIndex(items), "members", name);
    IndexMembership(items, "members", name, x);
    ItemsDistinct(Group, lines);
    IndexMultiplicity(items, "members", name, x);
    if x in items {
      ItemsKind(Group, lines, x);
      MembersKeys(x.fields);
    }
  }

  lemma {:induction false} ItemsKind(kind: Kind, lines: seq<string>, x: Item)
    requires x in Items(kind, lines)
    ensures KindOf(x.fields) == kind
  {
  }

  lemma {:induction false} ItemsDistinct(kind: Kind, lines: seq<string>)
    ensures NoRepeats(Items(kind, lines))
  {
    var items := Items(kind, lines);
    forall i, j | 0 <= i < j < |items|
      ensures items[i] != items[j]
    {
      assert items[i].id == i && items[j].id == j;
    }
  }

  /** A malformed line leaves a blank object, with every field empty, that
      is not a record but is found by searching any field for "". */
  lemma {:induction false} MalformedLineIndexedBlank(store: Store, kind: Kind, lines: seq<string>, i: nat, key: string)
    requires i < |lines|
    requires ParseLine(kind, lines[i]).None?
    requires key in FieldNames(kind)
    ensures var blank := Item(i, Blank(kind));
      && blank !in Search(ReloadDatatype(store, kind, Lines(lines)), kind, None, None).value
      && var r := Search(ReloadDatatype(store, kind, Lines(lines)), kind, Some(key), Some(""));
         r.Ok? && blank in r.value
  {
    var blank := Item(i, Blank(kind));
    var items := Items(kind, lines);
    assert items[i] == blank;
    SearchAllIsRecords(store, kind, lines, None);
    SearchIsLookup(store, kind, lines, key, "");
    IndexMembership(items, key, "", blank);
    if key == "members" {
      assert Split("", ',') == [""];
    }
  }

  /** Every accepted record is found again by searching any of its fields
      for any of its index keys (its value; for `members`, each name). */
  lemma {:induction false} RecordFoundByEachField(store: Store, kind: Kind, lines: seq<string>, x: Item, key: string, value: string)
    requires IsRecordOf(kind, lines, x)
    requires key in FieldNames(kind)
    requires value in IndexKeys(x.fields, key)
    ensures var r := Search(ReloadDatatype(store, kind, Lines(lines)), kind, Some(key), Some(value));
      r.Ok? && x in r.value
  {
    var items := Items(kind, lines);
    assert items[x.id] == x;
    SearchIsLookup(store, kind, lines, key, value);
    IndexMembership(items, key, value, x);
  }

  /** After a reload whose read failed, every search and query of that type
      raises the load error. */
  lemma {:induction false} UnreadableIsSticky(store: Store, kind: Kind, cause: string, key: Option<string>, value: Option<string>, crit: seq<Criterion>)
    ensures var s := ReloadDatatype(store, kind, Unreadable(cause));
      && Search(s, kind, key, value) == Fail(PathError(cause))
      && SearchWithParams(s, kind, crit) == Fail(PathError(cause))
  {
  }

  /** Reloading twice from the same content gives the same store as
      reloading once. */
  lemma {:induction false} ReloadIdempotent(store: Store, kind: Kind, read: FileRead)
    ensures ReloadDatatype(ReloadDatatype(store, kind, read), kind, read) == ReloadDatatype(store, kind, read)
  {
  }

  /** After a reload the type's state depends only on what was read. */
  lemma {:induction false} ReloadForgetsPrevious(s1: Store, s2: Store, kind: Kind, read: FileRead)
    ensures ReloadDatatype(s1, kind, read).Get(kind) == ReloadDatatype(s2, kind, read).Get(kind)
  {
  }

  /** At start-up each type is loaded from its own file alone: a failed
      read of one does not affect the other. */
  lemma {:induction false} InitLoadsEachType(accountRead: FileRead, groupRead: FileRead, any: Store)
    ensures Init(accountRead, groupRead).Get(Account) == ReloadDatatype(any, Account, accountRead).Get(Account)
    ensures Init(accountRead, groupRead).Get(Group) == ReloadDatatype(any, Group, groupRead).Get(Group)
  {
  }
}

=== FILE: outcomes.dfy ===
/** Optional values, the store's error conditions, and a result type that
    carries either a value or one of those errors. Python's exceptions in the
    data layer become the `Fail` case of `Result`. */
module Outcomes {

  datatype Option<+T> = None | Some(value: T)

  /** The errors the data layer can raise to its callers. */
  datatype Error =
    /** `QueryError`: a search key the type does not index or support. */
    | QueryError(key: string)
    /** Python's `KeyError` from reading a record field the type lacks. */
    | KeyError(key: string)
    /** `PathError`: the source file could not be read at the last load. */
    | PathError(cause: string)

  datatype Result<+T> = Ok(value: T) | Fail(error: Error)
}

=== FILE: query_proofs.dfy ===
/** What `search_with_params` computes: the candidates seeded from every
    queried key's index list that pass `compare_fields`, each object once,
    in the order first seen; and, on a loaded type, exactly the objects that
    satisfy every criterion. */
module QueryProofs {
  import opened Outcomes
  import opened Text
  import opened Records
  import opened FieldIndex
  import opened DataManager
  import opened LoadProofs

  predicate Passes(x: Item, crit: seq<Criterion>)
  {
    CompareFields(x.fields, crit) == Ok(true)
  }

  /** Reference definition: the candidates that pass, in order. */
  function Passing(cands: seq<Item>, crit: seq<Criterion>): seq<Item>
  {
    if |cands| == 0 then []
    else (if Passes(cands[0], crit) then [cands[0]] else []) + Passing(cands[1..], crit)
  }

  /** Reference definition: `acc` followed by the objects of `s` whose
      identity is not yet present, each at its first occurrence. */
  function Distinct(s: seq<Item>, acc: seq<Item>): seq<Item>
    decreases |s|
  {
    if |s| == 0 then acc
    else Distinct(s[1..], if HasId(acc, s[0].id) then acc else acc + [s[0]])
  }

  /** The candidates seeded by keys `i` onwards, in seeding order. */
  function Seeds(store: Store, kind: Kind, crit: seq<Criterion>, i: nat): seq<Item>
    requires i <= |crit|
    decreases |crit| - i
  {
    if i == |crit| then []
    else Lookup(store.Get(kind).index, DataKey(crit[i].key), Last(crit[i])) + Seeds(store, kind, crit, i + 1)
  }

  predicate UniqueIds(s: seq<Item>)
  {
    forall i, j :: 0 <= i < j < |s| ==> s[i].id != s[j].id
  }

  predicate KeysKnown(store: Store, kind: Kind, crit: seq<Criterion>)
  {
    forall j :: 0 <= j < |crit| ==> DataKey(crit[j].key) in store.Get(kind).index
  }

  lemma {:induction false} PassingAppend(a: seq<Item>, b: seq<Item>, crit: seq<Criterion>)
    ensures Passing(a + b, crit) == Passing(a, crit) + Passing(b, crit)
  {
    if |a| == 0 {
      assert a + b == b;
    } else {
      assert (a + b)[1..] == a[1..] + b;
      PassingAppend(a[1..], b, crit);
    }
  }

  lemma {:induction false} PassingMembership(cands: seq<Item>, crit: seq<Criterion>, x: Item)
    ensures x in Passing(cands, crit) <==> x in cands && Passes(x, crit)
  {
    if |cands| > 0 {
      PassingMembership(cands[1..], crit, x);
      assert cands == [cands[0]] + cands[1..];
    }
  }

  lemma {:induction false} DistinctAppend(a: seq<Item>, b: seq<Item>, acc: seq<Item>)
    ensures Distinct(a + b, acc) == Distinct(b, Distinct(a, acc))
  {
    if |a| == 0 {
      assert a + b == b;
    } else {
      assert (a + b)[1..] == a[1..] + b;
      assert (a + b)[0] == a[0];
      DistinctAppend(a[1..], b, if HasId(acc, a[0].id) then acc else acc + [a[0]]);
    }
  }

  /** `Distinct` only appends to `acc`. */
  lemma {:induction false} DistinctExtends(s: seq<Item>, acc: seq<Item>)
    ensures |acc| <= |Distinct(s, acc)| && Distinct(s, acc)[..|acc|] == acc
  {
    if |s| > 0 {
      var acc' := if HasId(acc, s[0].id) then acc else acc + [s[0]];
      DistinctExtends(s[1..], acc');
      assert acc'[..|acc|] == acc;
    }
  }

  /** `Distinct` keeps identities unique, adds only objects of `s`, and
      leaves every identity of `s` present. */
  lemma {:induction false} DistinctProperties(s: seq<Item>, acc: seq<Item>)
    requires UniqueIds(acc)
    ensures UniqueIds(Distinct(s, acc))
    ensures forall x :: x in Distinct(s, acc) ==> x in acc || x in s
    ensures forall x :: x in s ==> HasId(Distinct(s, acc), x.id)
  {
    if |s| > 0 {
      var acc' := if HasId(acc, s[0].id) then acc else acc + [s[0]];
      assert UniqueIds(acc');
      DistinctProperties(s[1..], acc');
      var d := Distinct(s, acc);
      DistinctExtends(s[1..], acc');
      forall x | x in s
        ensures HasId(d, x.id)
      {
        if x == s[0] {
          var j :| 0 <= j < |acc'| && acc'[j].id == x.id;
          assert d[j] == acc'[j];
        } else {
          assert x in s[1..];
        }
      }
      forall x | x in d
        ensures x in acc || x in s
      {
        if x in acc' && x !in acc {
          assert x == s[0];
        }
      }
    }
  }

  /** The inner loop keeps, without repeating an identity already present,
      the candidates that pass, in order. */
  lemma {:induction false} AbsorbIsDistinctPassing(cands: seq<Item>, crit: seq<Criterion>, ret: seq<Item>)
    requires forall j :: 0 <= j < |cands| ==> CompareFields(cands[j].fields, crit).Ok?
    ensures Absorb(cands, crit, ret) == Ok(Distinct(Passing(cands, crit), ret))
  {
    if |cands| > 0 {
      var m := cands[0];
      var rest := Passing(cands[1..], crit);
      assert Passing(cands, crit) == (if Passes(m, crit) then [m] else []) + rest;
      var ret' := if HasId(ret, m.id) || !Passes(m, crit) then ret else ret + [m];
      assert Absorb(cands, crit, ret) == Absorb(cands[1..], crit, ret');
      AbsorbIsDistinctPassing(cands[1..], crit, ret');
      if Passes(m, crit) {
        var s := [m] + rest;
        assert s[0] == m && s[1..] == rest;
        assert Distinct(s, ret) == Distinct(rest, ret');
      } else {
        assert [] + rest == rest;
      }
    }
  }

  lemma {:induction false} SeedsMembership(store: Store, kind: Kind, crit: seq<Criterion>, i: nat, x: Item)
    requires i <= |crit|
    ensures x in Seeds(store, kind, crit, i) <==>
            exists j :: i <= j < |crit| && x in Lookup(store.Get(kind).index, DataKey(crit[j].key), Last(crit[j]))
    decreases |crit| - i
  {
    if i < |crit| {
      SeedsMembership(store, kind, crit, i + 1, x);
      var here := Lookup(store.Get(kind).index, DataKey(crit[i].key), Last(crit[i]));
      if x in here {
        assert i <= i < |crit| && x in here;
      }
    }
  }

  /** With every key known and every seeded candidate comparable, the outer
      loop yields the passing seeds, each identity once, in seeding order. */
  lemma {:induction false} GatherIsDistinctPassing(store: Store, kind: Kind, crit: seq<Criterion>, i: nat, ret: seq<Item>)
    requires i <= |crit|
    requires store.Get(kind).status.None?
    requires KeysKnown(store, kind, crit)
    requires forall x :: x in Seeds(store, kind, crit, i) ==> CompareFields(x.fields, crit).Ok?
    ensures Gather(store, kind, crit, i, ret) == Ok(Distinct(Passing(Seeds(store, kind, crit, i), crit), ret))
    decreases |crit| - i
  {
    if i < |crit| {
      var c := crit[i];
      var here := Lookup(store.Get(kind).index, DataKey(c.key), Last(c));
      var later := Seeds(store, kind, crit, i + 1);
      assert Seeds(store, kind, crit, i) == here + later;
      assert Search(store, kind, Some(DataKey(c.key)), Some(Last(c))) == Ok(here);
      forall j | 0 <= j < |here|
        ensures CompareFields(here[j].fields, crit).Ok?
      {
        assert here[j] in here + later;
      }
      AbsorbIsDistinctPassing(here, crit, ret);
      var ret' := Distinct(Passing(here, crit), ret);
      forall x | x in later
        ensures CompareFields(x.fields, crit).Ok?
      {
        assert x in here + later;
      }
      GatherIsDistinctPassing(store, kind, crit, i + 1, ret');
      PassingAppend(here, later, crit);
      DistinctAppend(Passing(here, crit), Passing(later, crit), ret);
    }
  }

  /** A key whose data field the index does not know makes the query
      raise, whatever comes before it. */
  lemma {:induction false} GatherFailsOnUnknownKey(store: Store, kind: Kind, crit: seq<Criterion>, i: nat, ret: seq<Item>, j: nat)
    requires i <= j < |crit|
    requires DataKey(crit[j].key) !in store.Get(kind).index
    ensures Gather(store, kind, crit, i, ret).Fail?
    decreases |crit| - i
  {
    var c := crit[i];
    var s := Search(store, kind, Some(DataKey(c.key)), Some(Last(c)));
    if s.Ok? {
      assert i != j;
      var a := Absorb(s.value, crit, ret);
      if a.Ok? {
        GatherFailsOnUnknownKey(store, kind, crit, i + 1, a.value, j);
      }
    }
  }

  /** A query key the type supports: one of its fields, or `member` for
      groups. */
  predicate Supported(kind: Kind, key: string)
  {
    key in FieldNames(kind) || (key == "member" && kind == Group)
  }

  /** Supported keys name fields present in an index holding every field. */
  lemma {:induction false} SupportedKeysKnown(store: Store, kind: Kind, crit: seq<Criterion>)
    requires store.Get(kind).index.Keys == FieldSet(kind)
    requires forall i :: 0 <= i < |crit| ==> Supported(kind, crit[i].key)
    ensures KeysKnown(store, kind, crit)
  {
    forall j | 0 <= j < |crit|
      ensures DataKey(crit[j].key) in store.Get(kind).index
    {
      if crit[j].key == "member" {
        assert "members" in FieldNames(Group);
      }
    }
  }

  /** On a record of the type, supported keys raise nothing, so
      `compare_fields` yields the conjunction. */
  lemma {:induction false} SupportedKeysComparable(f: Fields, kind: Kind, crit: seq<Criterion>)
    requires KindOf(f) == kind
    requires forall i :: 0 <= i < |crit| ==> Supported(kind, crit[i].key)
    ensures CompareFields(f, crit) == Ok(AllSatisfy(f, crit))
  {
    CompareFieldsOnKnownKeys(f, crit);
  }

  /** The query on a dataset indexed from `items`, all of one type, whose
      index holds every field of the type and whose keys are all supported:
      it never raises and returns the passing seeds, each once, in the order
      the keys seed them. */
  lemma {:induction false} IndexedQueryIsDistinctPassingSeeds(store: Store, kind: Kind, items: seq<Item>, crit: seq<Criterion>)
    requires store.Get(kind).status.None?
    requires store.Get(kind).index == BuildIndex(items)
    requires store.Get(kind).index.Keys == FieldSet(kind)
    requires forall x :: x in items ==> KindOf(x.fields) == kind
    requires forall i :: 0 <= i < |crit| ==> Supported(kind, crit[i].key)
    ensures forall x :: x in Seeds(store, kind, crit, 0) ==> x in items
    ensures SearchWithParams(store, kind, crit) == Ok(Distinct(Passing(Seeds(store, kind, crit, 0), crit), []))
    ensures forall x :: x in Seeds(store, kind, crit, 0) ==> (Passes(x, crit) <==> AllSatisfy(x.fields, crit))
  {
    var idx := store.Get(kind).index;
    SupportedKeysKnown(store, kind, crit);
    forall x | x in Seeds(store, kind, crit, 0)
      ensures x in items
      ensures CompareFields(x.fields, crit) == Ok(AllSatisfy(x.fields, crit))
    {
      SeedsMembership(store, kind, crit, 0, x);
      var j :| 0 <= j < |crit| && x in Lookup(idx, DataKey(crit[j].key), Last(crit[j]));
      IndexMembership(items, DataKey(crit[j].key), Last(crit[j]), x);
      SupportedKeysComparable(x.fields, kind, crit);
    }
    GatherIsDistinctPassing(store, kind, crit, 0, []);
  }

  /** On a loaded, non-empty type whose keys are all supported, the query
      never raises and returns the passing seeds, each once, in the order
      the keys seed them. */
  lemma {:induction false} QueryIsDistinctPassingSeeds(store0: Store, kind: Kind, lines: seq<string>, crit: seq<Criterion>)
    requires |lines| > 0
    requires forall i :: 0 <= i < |crit| ==> Supported(kind, crit[i].key)
    ensures var store := ReloadDatatype(store0, kind, Lines(lines));
      && (forall x :: x in Seeds(store, kind, crit, 0) ==> x in Items(kind, lines))
      && SearchWithParams(store, kind, crit) == Ok(Distinct(Passing(Seeds(store, kind, crit, 0), crit), []))
      && (forall x :: x in Seeds(store, kind, crit, 0) ==> (Passes(x, crit) <==> AllSatisfy(x.fields, crit)))
  {
    var store := ReloadDatatype(store0, kind, Lines(lines));
    var items := Items(kind, lines);
    ReloadedIndex(store0, kind, lines);
    forall x | x in items
      ensures KindOf(x.fields) == kind
    {
      ItemsKind(kind, lines, x);
    }
    IndexedQueryIsDistinctPassingSeeds(store, kind, items, crit);
  }

  /** Objects of one load are identified by their line position. */
  lemma {:induction false} ItemsUniqueIds(kind: Kind, lines: seq<string>)
    ensures UniqueIds(Items(kind, lines))
  {
  }

  lemma {:induction false} UniqueIdsIdentity(s: seq<Item>, x: Item, y: Item)
    requires UniqueIds(s) && x in s && y in s && x.id == y.id
    ensures x == y
  {
  }

  /** A criterion that seeds every object satisfying it: any key other than
      the plain `members` field, or that field with a value holding no comma,
      which its split index lists as a single piece. */
  predicate Seeding(c: Criterion)
  {
    c.key != "members" || ',' !in Last(c)
  }

  /** A satisfied seeding criterion names a value under which the object is
      indexed. */
  lemma {:induction false} SatisfiedKeyIndexed(f: Fields, c: Criterion)
    requires Satisfies(f, c) && Seeding(c)
    ensures Last(c) in IndexKeys(f, DataKey(c.key))
  {
    if c.key == "member" {
      assert Last(c) in c.values;
    } else if c.key == "members" {
      SplitNoSeparator(Last(c), ',');
    }
  }

  /** On a dataset indexed from `items`, an object of `items` satisfying the
      whole query is seeded by any seeding key. */
  lemma {:induction false} IndexedSatisfyingIsSeeded(store: Store, kind: Kind, items: seq<Item>, crit: seq<Criterion>, i: nat, x: Item)
    requires store.Get(kind).index == BuildIndex(items)
    requires i < |crit| && Seeding(crit[i])
    requires x in items && AllSatisfy(x.fields, crit)
    ensures x in Seeds(store, kind, crit, 0)
  {
    var c := crit[i];
    assert Satisfies(x.fields, c);
    SatisfiedKeyIndexed(x.fields, c);
    IndexMembership(items, DataKey(c.key), Last(c), x);
    SeedsMembership(store, kind, crit, 0, x);
  }

  /** An object of a loaded file satisfying the whole query is seeded by
      any seeding key. */
  lemma {:induction false} SatisfyingIsSeeded(store0: Store, kind: Kind, lines: seq<string>, crit: seq<Criterion>, i: nat, x: Item)
    requires |lines| > 0
    requires i < |crit| && Seeding(crit[i])
    requires x in Items(kind, lines) && AllSatisfy(x.fields, crit)
    ensures x in Seeds(ReloadDatatype(store0, kind, Lines(lines)), kind, crit, 0)
  {
    ReloadedIndex(store0, kind, lines);
    IndexedSatisfyingIsSeeded(ReloadDatatype(store0, kind, Lines(lines)), kind, Items(kind, lines), crit, i, x);
  }

  /** AND semantics on a dataset indexed from `items`, objects of its type
      with distinct identities, queried with supported keys of which at
      least one is seeding: the result holds each
      object satisfying every criterion exactly once, and nothing else. */
  lemma {:induction false} IndexedQueryIsConjunction(store: Store, kind: Kind, items: seq<Item>, crit: seq<Criterion>)
    requires store.Get(kind).status.None?
    requires store.Get(kind).index == BuildIndex(items)
    requires store.Get(kind).index.Keys == FieldSet(kind)
    requires forall x :: x in items ==> KindOf(x.fields) == kind
    requires UniqueIds(items)
    requires forall i :: 0 <= i < |crit| ==> Supported(kind, crit[i].key)
    requires exists i :: 0 <= i < |crit| && Seeding(crit[i])
    ensures var r := SearchWithParams(store, kind, crit);
      && r.Ok?
      && UniqueIds(r.value)
      && forall x :: x in r.value <==> x in items && AllSatisfy(x.fields, crit)
  {
    var seeds := Seeds(store, kind, crit, 0);
    IndexedQueryIsDistinctPassingSeeds(store, kind, items, crit);
    var r := Distinct(Passing(seeds, crit), []);
    DistinctProperties(Passing(seeds, crit), []);
    forall x
      ensures x in r <==> x in items && AllSatisfy(x.fields, crit)
    {
      PassingMembership(seeds, crit, x);
      if x in items && AllSatisfy(x.fields, crit) {
        var i :| 0 <= i < |crit| && Seeding(crit[i]);
        IndexedSatisfyingIsSeeded(store, kind, items, crit, i, x);
        var j :| 0 <= j < |r| && r[j].id == x.id;
        PassingMembership(seeds, crit, r[j]);
        UniqueIdsIdentity(items, x, r[j]);
      }
    }
  }

  /** AND semantics: on a loaded, non-empty type with supported keys, at
      least one of them seeding, the query returns
      each object satisfying every criterion exactly once and nothing else.
      Blank objects of malformed lines take part like any other. */
  lemma {:induction false} QueryIsConjunction(store0: Store, kind: Kind, lines: seq<string>, crit: seq<Criterion>)
    requires |lines| > 0
    requires forall i :: 0 <= i < |crit| ==> Supported(kind, crit[i].key)
    requires exists i :: 0 <= i < |crit| && Seeding(crit[i])
    ensures var r := SearchWithParams(ReloadDatatype(store0, kind, Lines(lines)), kind, crit);
      && r.Ok?
      && UniqueIds(r.value)
      && forall x :: x in r.value <==> x in Items(kind, lines) && AllSatisfy(x.fields, crit)
  {
    var items := Items(kind, lines);
    ReloadedIndex(store0, kind, lines);
    forall x | x in items
      ensures KindOf(x.fields) == kind
    {
      ItemsKind(kind, lines, x);
    }
    ItemsUniqueIds(kind, lines);
    IndexedQueryIsConjunction(ReloadDatatype(store0, kind, Lines(lines)), kind, items, crit);
  }

  /** A key the type does not support (any key, when the file is empty)
      makes the query raise `QueryError`, or `KeyError` for `member` on
      accounts. */
  lemma {:induction false} QueryUnknownKeyFails(store0: Store, kind: Kind, lines: seq<string>, crit: seq<Criterion>, j: nat)
    requires j < |crit|
    requires |lines| == 0 || !Supported(kind, crit[j].key)
    ensures var r := SearchWithParams(ReloadDatatype(store0, kind, Lines(lines)), kind, crit);
      r.Fail? && (r.error.QueryError? || r.error.KeyError?)
  {
    var store := ReloadDatatype(store0, kind, Lines(lines));
    ReloadedIndex(store0, kind, lines);
    var keys := store.Get(kind).index.Keys;
    assert keys == {} || keys == FieldSet(kind);
    if |lines| > 0 {
      DataKeyIndexed(kind, crit[j].key);
    }
    assert DataKey(crit[j].key) !in keys;
    GatherFailsOnUnknownKey(store, kind, crit, 0, [], j);
    assert SearchWithParams(store, kind, crit) == Gather(store, kind, crit, 0, []);
  }

  /** On a group, `compare_fields` of a query whose first unsupported key
      is at `u` can only raise `QueryError` for that key: `member` is
      supported on groups, so no earlier key raises and no `KeyError` arises. */
  lemma {:induction false} GroupCompareError(f: Fields, crit: seq<Criterion>, u: nat)
    requires f.GroupFields?
    requires u < |crit| && !Supported(Group, crit[u].key)
    requires forall k :: 0 <= k < u ==> Supported(Group, crit[k].key)
    ensures CompareFields(f, crit).Fail? ==> CompareFields(f, crit).error == QueryError(crit[u].key)
  {
    CompareFieldsSpec(f, crit);
    if CompareFields(f, crit).Fail? {
      var j :| 0 <= j < |crit| && FirstRaise(f, crit, 0, j) &&
        CompareFields(f, crit).error == KeyProblem(f, crit[j]).value;
      assert KeyProblem(f, crit[u]).Some?;
      assert j == u;
    }
  }

  /** The inner loop over group candidates raises only that same error. */
  lemma {:induction false} GroupAbsorbError(cands: seq<Item>, crit: seq<Criterion>, ret: seq<Item>, u: nat)
    requires forall i :: 0 <= i < |cands| ==> cands[i].fields.GroupFields?
    requires u < |crit| && !Supported(Group, crit[u].key)
    requires forall k :: 0 <= k < u ==> Supported(Group, crit[k].key)
    ensures Absorb(cands, crit, ret).Fail? ==> Absorb(cands, crit, ret).error == QueryError(crit[u].key)
    decreases |cands|
  {
    if |cands| > 0 {
      var m := cands[0];
      if HasId(ret, m.id) {
        GroupAbsorbError(cands[1..], crit, ret, u);
      } else {
        GroupCompareError(m.fields, crit, u);
        var cmp := CompareFields(m.fields, crit);
        if cmp.Ok? {
          GroupAbsorbError(cands[1..], crit, if cmp.value then ret + [m] else ret, u);
        }
      }
    }
  }

  /** The outer loop from key `i <= u` on raises `QueryError` for the first
      unsupported key: either a candidate's comparison reaches it, or the
      search on it finds no such index field. */
  lemma {:induction false} GroupGatherError(store: Store, items: seq<Item>, crit: seq<Criterion>, i: nat, ret: seq<Item>, u: nat)
    requires store.Get(Group).status.None?
    requires store.Get(Group).index == BuildIndex(items)
    requires store.Get(Group).index.Keys == FieldSet(Group)
    requires forall x :: x in items ==> KindOf(x.fields) == Group
    requires i <= u < |crit| && !Supported(Group, crit[u].key)
    requires forall k :: 0 <= k < u ==> Supported(Group, crit[k].key)
    ensures Gather(store, Group, crit, i, ret) == Fail(QueryError(crit[u].key))
    decreases u - i
  {
    var c := crit[i];
    DataKeyIndexed(Group, c.key);
    if i == u {
      assert DataKey(c.key) == c.key;
      assert Search(store, Group, Some(DataKey(c.key)), Some(Last(c))) == Fail(QueryError(c.key));
    } else {
      var idx := store.Get(Group).index;
      var matches := Lookup(idx, DataKey(c.key), Last(c));
      assert Search(store, Group, Some(DataKey(c.key)), Some(Last(c))) == Ok(matches);
      forall n | 0 <= n < |matches|
        ensures matches[n].fields.GroupFields?
      {
        IndexMembership(items, DataKey(c.key), Last(c), matches[n]);
      }
      GroupAbsorbError(matches, crit, ret, u);
      var a := Absorb(matches, crit, ret);
      if a.Ok? {
        GroupGatherError(store, items, crit, i + 1, a.value, u);
      }
    }
  }

  /** On a loaded, non-empty group file, a query raises exactly
      `QueryError` for its first unsupported key, in iteration order. */
  lemma {:induction false} GroupQueryUnknownKeyError(store0: Store, lines: seq<string>, crit: seq<Criterion>, u: nat)
    requires |lines| > 0
    requires u < |crit| && !Supported(Group, crit[u].key)
    requires forall k :: 0 <= k < u ==> Supported(Group, crit[k].key)
    ensures SearchWithParams(ReloadDatatype(store0, Group, Lines(lines)), Group, crit) == Fail(QueryError(crit[u].key))
  {
    var store := ReloadDatatype(store0, Group, Lines(lines));
    ReloadedIndex(store0, Group, lines);
    forall x | x in Items(Group, lines)
      ensures KindOf(x.fields) == Group
    {
      ItemsKind(Group, lines, x);
    }
    GroupGatherError(store, Items(Group, lines), crit, 0, [], u);
  }

  /** The data field a query key reads is indexed for a non-empty type
      exactly when the key is supported. */
  lemma {:induction false} DataKeyIndexed(kind: Kind, key: string)
    ensures DataKey(key) in FieldSet(kind) <==> Supported(kind, key)
  {
  }

  /** No member name contains a comma, so no group is listed under one. */
  lemma {:induction false} CommaNameUnlisted(items: seq<Item>, name: string)
    requires ',' in name
    ensures Lookup(BuildIndex(items), "members", name) == []
  {
    var list := Lookup(BuildIndex(items), "members", name);
    if |list| > 0 {
      MembersIndex(items, name, list[0]);
      assert false;
    }
  }

  /** The plain `members` key is looked up in the split index but compared
      against the whole field: on a loaded group file, a query on it alone
      whose value contains a comma finds nothing, even for a group whose
      `members` is exactly that value. */
  lemma {:induction false} PlainMembersWithCommaFindsNothing(store0: Store, lines: seq<string>, c: Criterion)
    requires |lines| > 0
    requires c.key == "members" && ',' in Last(c)
    ensures SearchWithParams(ReloadDatatype(store0, Group, Lines(lines)), Group, [c]) == Ok([])
  {
    var store := ReloadDatatype(store0, Group, Lines(lines));
    ReloadedIndex(store0, Group, lines);
    assert "members" in FieldSet(Group);
    CommaNameUnlisted(Items(Group, lines), Last(c));
    assert Search(store, Group, Some("members"), Some(Last(c))) == Ok([]);
    assert Gather(store, Group, [c], 1, []) == Ok([]);
  }
}

=== FILE: records.dfy ===
/** The two record types of the store (`PasswordData` for the passwd file,
    `GroupData` for the group file), how one line of a source file becomes a
    record, and how a record is checked against query criteria
    (`BaseDataType.compare_fields`). */
module Records {
  import opened Outcomes
  import opened Text

  /** The closed set of record types. */
  datatype Kind = Account | Group

  /** The exposed field names of each type, in declaration order. */
  function FieldNames(kind: Kind): seq<string>
  {
    match kind
    case Account => ["name", "uid", "gid", "comment", "home", "shell"]
    case Group => ["name", "gid", "members"]
  }

  function FieldSet(kind: Kind): set<string>
  {
    set f | f in FieldNames(kind)
  }

  /** Number of colon-separated tokens a line of each file must have. */
  function SourceFieldSize(kind: Kind): nat
  {
    match kind
    case Account => 7
    case Group => 4
  }

  /** The token position each exposed field is copied from, in the order
      of `FieldNames`: position 1, the password placeholder, is never read. */
  function TokenPositions(kind: Kind): (ps: seq<nat>)
    ensures |ps| == |FieldNames(kind)|
    ensures forall i :: 0 <= i < |ps| ==> ps[i] < SourceFieldSize(kind)
  {
    match kind
    case Account => [0, 2, 3, 4, 5, 6]
    case Group => [0, 2, 3]
  }

  /** The field values of one record. A group's `members` is kept as the
      raw comma-joined string; only the index splits it. */
  datatype Fields =
    | AccountFields(name: string, uid: string, gid: string, comment: string, home: string, shell: string)
    | GroupFields(name: string, gid: string, members: string)

  function KindOf(f: Fields): Kind
  {
    if f.AccountFields? then Account else Group
  }

  /** `BaseDataType.get_field`: the value of a named field, `None` for a
      name the record type does not define. */
  function GetField(f: Fields, key: string): (r: Option<string>)
    ensures r.Some? <==> key in FieldNames(KindOf(f))
  {
    match f
    case AccountFields(name, uid, gid, comment, home, shell) =>
      if key == "name" then Some(name)
      else if key == "uid" then Some(uid)
      else if key == "gid" then Some(gid)
      else if key == "comment" then Some(comment)
      else if key == "home" then Some(home)
      else if key == "shell" then Some(shell)
      else None
    case GroupFields(name, gid, members) =>
      if key == "name" then Some(name)
      else if key == "gid" then Some(gid)
      else if key == "members" then Some(members)
      else None
  }

  /** A freshly constructed record: every field is the empty string. */
  function Blank(kind: Kind): (f: Fields)
    ensures KindOf(f) == kind
    ensures forall key :: key in FieldNames(kind) ==> GetField(f, key) == Some("")
  {
    match kind
    case Account => AccountFields("", "", "", "", "", "")
    case Group => GroupFields("", "", "")
  }

  /** `load_from_list`: copy token positions 0,2,3,4,5,6 (account) or
      0,2,3 (group) into the named fields; position 1, the password
      placeholder, is dropped. A list of the wrong length is refused. */
  function LoadFromList(kind: Kind, tokens: seq<string>): (r: Option<Fields>)
    ensures r.Some? <==> |tokens| == SourceFieldSize(kind)
    ensures r.Some? ==> KindOf(r.value) == kind
    ensures r.Some? ==> Tokens(r.value, tokens[1]) == tokens
  {
    match kind
    case Account =>
      if |tokens| == 7 then
        Some(AccountFields(tokens[0], tokens[2], tokens[3], tokens[4], tokens[5], tokens[6]))
      else None
    case Group =>
      if |tokens| == 4 then Some(GroupFields(tokens[0], tokens[2], tokens[3]))
      else None
  }

  /** One line of a source file as the loader reads it: newlines removed,
      split on ':', accepted only with the type's exact token count. */
  function ParseLine(kind: Kind, line: string): Option<Fields>
  {
    LoadFromList(kind, Split(StripNewlines(line), ':'))
  }

  /** The record the loader indexes for a line: the parsed fields, or the
      untouched blank record when the line is malformed. */
  function ParseOrBlank(kind: Kind, line: string): (f: Fields)
    ensures KindOf(f) == kind
  {
    match ParseLine(kind, line)
    case Some(parsed) => parsed
    case None => Blank(kind)
  }

  /** A line is accepted exactly when it has one colon fewer than the
      type's token count (newlines do not count). */
  lemma {:induction false} ParseLineAccepts(kind: Kind, line: string)
    ensures ParseLine(kind, line).Some? <==> Count(line, ':') + 1 == SourceFieldSize(kind)
  {
  }

  /** The raw tokens of a line holding `f`, with `password` at position 1. */
  function Tokens(f: Fields, password: string): (ts: seq<string>)
    ensures |ts| == SourceFieldSize(KindOf(f))
  {
    match f
    case AccountFields(name, uid, gid, comment, home, shell) =>
      [name, password, uid, gid, comment, home, shell]
    case GroupFields(name, gid, members) =>
      [name, password, gid, members]
  }

  /** `get_field` of each exposed field is the token at that field's
      position in the record's line layout. */
  lemma {:induction false} GetFieldTokenPositions(f: Fields, password: string)
    ensures var kind := KindOf(f);
      forall i :: 0 <= i < |FieldNames(kind)| ==>
        GetField(f, FieldNames(kind)[i]) == Some(Tokens(f, password)[TokenPositions(kind)[i]])
  {
  }

  /** `load_from_list` copies the token at each field's position into that
      field. */
  lemma {:induction false} LoadFromListPositions(kind: Kind, tokens: seq<string>)
    ensures var r := LoadFromList(kind, tokens);
      r.Some? ==> forall i :: 0 <= i < |FieldNames(kind)| ==>
        GetField(r.value, FieldNames(kind)[i]) == Some(tokens[TokenPositions(kind)[i]])
  {
    var r := LoadFromList(kind, tokens);
    if r.Some? {
      GetFieldTokenPositions(r.value, tokens[1]);
    }
  }

  /** The fields of an accepted line are its colon-separated tokens, newlines
      removed, taken at the type's token positions. */
  lemma {:induction false} ParseLineFields(kind: Kind, line: string)
    ensures var tokens := Split(StripNewlines(line), ':');
      var r := ParseLine(kind, line);
      r.Some? ==> forall i :: 0 <= i < |FieldNames(kind)| ==>
        GetField(r.value, FieldNames(kind)[i]) == Some(tokens[TokenPositions(kind)[i]])
  {
    LoadFromListPositions(kind, Split(StripNewlines(line), ':'));
  }

  /** The passwd / group line layout: the tokens joined by ':'. */
  function FormatLine(f: Fields, password: string): string
  {
    Join(Tokens(f, password), ':')
  }

  lemma {:induction false} JoinAvoids(ts: seq<string>, sep: char, c: char)
    requires |ts| >= 1
    requires c != sep
    requires forall i :: 0 <= i < |ts| ==> c !in ts[i]
    ensures c !in Join(ts, sep)
  {
    if |ts| > 1 {
      JoinAvoids(ts[1..], sep, c);
    }
  }

  lemma {:induction false} StripNewlinesAppend(a: string, b: string)
    ensures StripNewlines(a + b) == StripNewlines(a) + StripNewlines(b)
  {
    if |a| > 0 {
      assert (a + b)[0] == a[0];
      assert (a + b)[1..] == a[1..] + b;
      StripNewlinesAppend(a[1..], b);
      var head := if a[0] == '\n' then "" else [a[0]];
      assert StripNewlines(a + b) == head + (StripNewlines(a[1..]) + StripNewlines(b));
      assert StripNewlines(a) == head + StripNewlines(a[1..]);
    } else {
      assert a + b == b;
    }
  }

  /** Parsing a formatted line (with its trailing newline) gives back the
      record, whenever no value contains ':' or a newline. */
  lemma {:induction false} ParseFormatRoundTrip(f: Fields, password: string)
    requires forall i :: 0 <= i < |Tokens(f, password)| ==>
               ':' !in Tokens(f, password)[i] && '\n' !in Tokens(f, password)[i]
    ensures ParseLine(KindOf(f), FormatLine(f, password) + "\n") == Some(f)
  {
    var ts := Tokens(f, password);
    var line := FormatLine(f, password);
    JoinAvoids(ts, ':', '\n');
    StripNewlinesAppend(line, "\n");
    assert StripNewlines("\n") == "";
    assert StripNewlines(line + "\n") == line;
    SplitJoin(ts, ':');
  }

  /** Conversely, an accepted line is exactly the format of its record with
      some token at the discarded password position. */
  lemma {:induction false} ParsedLineReformats(kind: Kind, line: string, f: Fields)
    requires ParseLine(kind, line) == Some(f)
    ensures KindOf(f) == kind
    ensures FormatLine(f, Split(StripNewlines(line), ':')[1]) == StripNewlines(line)
  {
    var ts := Split(StripNewlines(line), ':');
    assert Tokens(f, ts[1]) == ts;
    JoinSplit(StripNewlines(line), ':');
  }

  /** One loaded object. Its identity is the position of the line that
      produced it: the loader creates exactly one object per line. */
  datatype Item = Item(id: nat, fields: Fields)

  /** The values a query supplies for one key; a query string never has a
      key without a value. */
  type ValueList = vs: seq<string> | |vs| > 0 witness [""]

  /** One key of a query dictionary with all the values given for it. */
  datatype Criterion = Criterion(key: string, values: ValueList)

  /** The value a query dictionary yields for a key when iterated
      (`items()`/`iteritems()`): the last one given. */
  function Last(c: Criterion): string
  {
    c.values[|c.values| - 1]
  }

  /** The meaning of one criterion. `member` asks that every queried name be
      one of the record's comma-separated members (extra members allowed);
      any other key asks for exact equality with the (last) value; a key
      the type does not define is never satisfied. */
  predicate Satisfies(f: Fields, c: Criterion)
  {
    if c.key == "member" then
      f.GroupFields? && forall q :: q in c.values ==> q in Split(f.members, ',')
    else
      GetField(f, c.key) == Some(Last(c))
  }

  predicate AllSatisfy(f: Fields, crit: seq<Criterion>)
  {
    forall i :: 0 <= i < |crit| ==> Satisfies(f, crit[i])
  }

  /** The error `compare_fields` raises on reaching a criterion, if any:
      `member` on a record without a `members` field, or a plain key that
      is not a field. */
  function KeyProblem(f: Fields, c: Criterion): Option<Error>
  {
    if c.key == "member" then
      (if f.GroupFields? then None else Some(KeyError("members")))
    else if GetField(f, c.key).None? then Some(QueryError(c.key))
    else None
  }

  /** A plain criterion on a defined field whose value differs: the check
      stops at it. */
  predicate PlainMismatch(f: Fields, c: Criterion)
  {
    c.key != "member" && GetField(f, c.key).Some? && GetField(f, c.key).value != Last(c)
  }

  /** The loop of `compare_fields` from criterion `i` on, with `ret` the
      verdict so far. A plain mismatch ends the whole loop; a missing member
      only ends the inner loop over queried names. */
  function CompareFrom(f: Fields, crit: seq<Criterion>, i: nat, ret: bool): (r: Result<bool>)
    requires i <= |crit|
    ensures r.Fail? ==> r.error.QueryError? || r.error.KeyError?
    decreases |crit| - i
  {
    if i == |crit| then Ok(ret)
    else
      var c := crit[i];
      if c.key == "member" then
        if !f.GroupFields? then Fail(KeyError("members"))
        else
          var allPresent := forall q :: q in c.values ==> q in Split(f.members, ',');
          CompareFrom(f, crit, i + 1, ret && allPresent)
      else if GetField(f, c.key).None? then Fail(QueryError(c.key))
      else if GetField(f, c.key).value != Last(c) then Ok(false)
      else CompareFrom(f, crit, i + 1, ret)
  }

  /** `BaseDataType.compare_fields`. */
  function CompareFields(f: Fields, crit: seq<Criterion>): Result<bool>
  {
    CompareFrom(f, crit, 0, true)
  }

  /** `compare_fields`, started at criterion `i`, reaches the unsupported
      key at `j` with no plain mismatch before it. */
  predicate RaisesAt(f: Fields, crit: seq<Criterion>, i: nat, j: nat)
    requires i <= j < |crit|
  {
    KeyProblem(f, crit[j]).Some? && forall k :: i <= k < j ==> !PlainMismatch(f, crit[k])
  }

  predicate Raises(f: Fields, crit: seq<Criterion>, i: nat)
  {
    exists j :: i <= j < |crit| && RaisesAt(f, crit, i, j)
  }

  /** `compare_fields`, started at criterion `i`, raises at `j`: the first
      key problem from `i` on, with no plain mismatch before it. */
  predicate FirstRaise(f: Fields, crit: seq<Criterion>, i: nat, j: nat)
    requires i <= j < |crit|
  {
    RaisesAt(f, crit, i, j) && forall k :: i <= k < j ==> KeyProblem(f, crit[k]).None?
  }

  /** When the loop raises, it raises the error of the first key problem it
      reaches. */
  lemma {:induction false} CompareFromError(f: Fields, crit: seq<Criterion>, i: nat, ret: bool)
    requires i <= |crit|
    ensures CompareFrom(f, crit, i, ret).Fail? ==>
      exists j :: i <= j < |crit| && FirstRaise(f, crit, i, j) &&
        CompareFrom(f, crit, i, ret).error == KeyProblem(f, crit[j]).value
    decreases |crit| - i
  {
    if i < |crit| {
      var c := crit[i];
      if KeyProblem(f, c).Some? {
        assert FirstRaise(f, crit, i, i);
      } else if !PlainMismatch(f, c) {
        var next := if c.key == "member" then
                      ret && forall q :: q in c.values ==> q in Split(f.members, ',')
                    else ret;
        assert CompareFrom(f, crit, i, ret) == CompareFrom(f, crit, i + 1, next);
        CompareFromError(f, crit, i + 1, next);
        if CompareFrom(f, crit, i, ret).Fail? {
          var j :| i + 1 <= j < |crit| && FirstRaise(f, crit, i + 1, j) &&
            CompareFrom(f, crit, i + 1, next).error == KeyProblem(f, crit[j]).value;
          assert FirstRaise(f, crit, i, j);
        }
      }
    }
  }

  lemma {:induction false} CompareFromOk(f: Fields, crit: seq<Criterion>, i: nat, ret: bool)
    requires i <= |crit|
    ensures CompareFrom(f, crit, i, ret).Ok? ==>
      (CompareFrom(f, crit, i, ret).value <==> ret && forall j :: i <= j < |crit| ==> Satisfies(f, crit[j]))
    decreases |crit| - i
  {
    if i < |crit| {
      var c := crit[i];
      if c.key == "member" {
        if f.GroupFields? {
          var allPresent := forall q :: q in c.values ==> q in Split(f.members, ',');
          CompareFromOk(f, crit, i + 1, ret && allPresent);
        }
      } else if GetField(f, c.key).Some? {
        if GetField(f, c.key).value != Last(c) {
          assert !Satisfies(f, crit[i]);
        } else {
          CompareFromOk(f, crit, i + 1, ret);
        }
      }
    }
  }

  lemma {:induction false} CompareFromFails(f: Fields, crit: seq<Criterion>, i: nat, ret: bool)
    requires i <= |crit|
    ensures CompareFrom(f, crit, i, ret).Fail? <==> Raises(f, crit, i)
    decreases |crit| - i
  {
    if i < |crit| {
      var c := crit[i];
      if KeyProblem(f, c).Some? {
        assert RaisesAt(f, crit, i, i);
      } else if PlainMismatch(f, c) {
      } else {
        var next := if c.key == "member" then
                      ret && forall q :: q in c.values ==> q in Split(f.members, ',')
                    else ret;
        assert CompareFrom(f, crit, i, ret) == CompareFrom(f, crit, i + 1, next);
        CompareFromFails(f, crit, i + 1, next);
        RaisesStep(f, crit, i);
      }
    }
  }

  /** A criterion with neither a key problem nor a plain mismatch passes the
      question of whether the comparison raises on to the next one. */
  lemma {:induction false} RaisesStep(f: Fields, crit: seq<Criterion>, i: nat)
    requires i < |crit| && KeyProblem(f, crit[i]).None? && !PlainMismatch(f, crit[i])
    ensures Raises(f, crit, i) <==> Raises(f, crit, i + 1)
  {
    if Raises(f, crit, i + 1) {
      var j :| i + 1 <= j < |crit| && RaisesAt(f, crit, i + 1, j);
      assert RaisesAt(f, crit, i, j);
    }
    if Raises(f, crit, i) {
      var j :| i <= j < |crit| && RaisesAt(f, crit, i, j);
      assert j != i;
      assert RaisesAt(f, crit, i + 1, j);
    }
  }

  /** `compare_fields` is the conjunction of the criteria whenever it
      returns; it raises exactly when it reaches an unsupported key before
      any plain mismatch stops it, and then raises that key's error. */
  lemma {:induction false} CompareFieldsSpec(f: Fields, crit: seq<Criterion>)
    ensures CompareFields(f, crit).Ok? ==> (CompareFields(f, crit).value <==> AllSatisfy(f, crit))
    ensures CompareFields(f, crit).Fail? <==> Raises(f, crit, 0)
    ensures CompareFields(f, crit).Fail? ==>
      exists j :: 0 <= j < |crit| && FirstRaise(f, crit, 0, j) &&
        CompareFields(f, crit).error == KeyProblem(f, crit[j]).value
  {
    CompareFromOk(f, crit, 0, true);
    CompareFromFails(f, crit, 0, true);
    CompareFromError(f, crit, 0, true);
  }

  /** With every key defined for the record's type, `compare_fields` never
      raises and returns the conjunction. */
  lemma {:induction false} CompareFieldsOnKnownKeys(f: Fields, crit: seq<Criterion>)
    requires forall i :: 0 <= i < |crit| ==> KeyProblem(f, crit[i]).None?
    ensures CompareFields(f, crit) == Ok(AllSatisfy(f, crit))
  {
    CompareFieldsSpec(f, crit);
  }
}

=== FILE: text.dfy ===
/** The string primitives the loader relies on, written out explicitly:
    Python's `str.split(sep)` with a one-character separator, its inverse
    `sep.join(...)`, and `str.replace('\n', '')`. */
module Text {

  /** Number of occurrences of `x` in `s`. */
  function Count<T(==)>(s: seq<T>, x: T): (n: nat)
    ensures n <= |s|
    ensures n == 0 <==> x !in s
  {
    if |s| == 0 then 0 else (if s[0] == x then 1 else 0) + Count(s[1..], x)
  }

  lemma {:induction false} CountAppend<T>(a: seq<T>, b: seq<T>, x: T)
    ensures Count(a + b, x) == Count(a, x) + Count(b, x)
  {
    if |a| == 0 {
      assert a + b == b;
    } else {
      assert (a + b)[1..] == a[1..] + b;
      CountAppend(a[1..], b, x);
    }
  }

  /** `n` copies of `x`. */
  function Repeat<T>(x: T, n: nat): (r: seq<T>)
    ensures |r| == n
    ensures forall i :: 0 <= i < n ==> r[i] == x
  {
    seq(n, _ => x)
  }

  /** Python's `s.replace('\n', '')`: every newline is removed, nothing else. */
  function StripNewlines(s: string): (r: string)
    ensures '\n' !in r
    ensures forall c :: c != '\n' ==> Count(r, c) == Count(s, c)
    ensures '\n' !in s ==> r == s
  {
    if |s| == 0 then ""
    else
      var head := if s[0] == '\n' then "" else [s[0]];
      var tail := StripNewlines(s[1..]);
      assert forall c :: Count(head + tail, c) == Count(head, c) + Count(tail, c) by {
        forall c { CountAppend(head, tail, c); }
      }
      head + tail
  }

  /** Python's `s.split(sep)` for a one-character separator: one more piece
      than there are separators, and no piece contains the separator. */
  function Split(s: string, sep: char): (r: seq<string>)
    ensures |r| == Count(s, sep) + 1
    ensures forall i :: 0 <= i < |r| ==> sep !in r[i]
  {
    if |s| == 0 then [""]
    else
      var rest := Split(s[1..], sep);
      if s[0] == sep then [""] + rest
      else [[s[0]] + rest[0]] + rest[1..]
  }

  /** Python's `sep.join(ts)` for a non-empty list of pieces. */
  function Join(ts: seq<string>, sep: char): string
    requires |ts| >= 1
  {
    if |ts| == 1 then ts[0] else ts[0] + [sep] + Join(ts[1..], sep)
  }

  lemma {:induction false} JoinConsHead(c: char, ts: seq<string>, sep: char)
    requires |ts| >= 1
    ensures Join([[c] + ts[0]] + ts[1..], sep) == [c] + Join(ts, sep)
  {
    var us := [[c] + ts[0]] + ts[1..];
    assert us[1..] == ts[1..];
  }

  /** Joining the pieces of a split gives back the string. */
  lemma {:induction false} JoinSplit(s: string, sep: char)
    ensures Join(Split(s, sep), sep) == s
  {
    if |s| > 0 {
      var rest := Split(s[1..], sep);
      JoinSplit(s[1..], sep);
      if s[0] == sep {
        assert ([""] + rest)[1..] == rest;
        assert Join([""] + rest, sep) == "" + [sep] + Join(rest, sep);
        assert s == [s[0]] + s[1..];
      } else {
        JoinConsHead(s[0], rest, sep);
        assert s == [s[0]] + s[1..];
      }
    }
  }

  lemma {:induction false} SplitNoSeparator(s: string, sep: char)
    requires sep !in s
    ensures Split(s, sep) == [s]
  {
    if |s| > 0 {
      assert sep !in s[1..];
      SplitNoSeparator(s[1..], sep);
      assert [s[0]] + s[1..] == s;
    }
  }

  lemma {:induction false} SplitAfterPiece(a: string, b: string, sep: char)
    requires sep !in a
    ensures Split(a + [sep] + b, sep) == [a] + Split(b, sep)
  {
    var s := a + [sep] + b;
    if |a| == 0 {
      assert s == [sep] + b;
      assert s[1..] == b;
    } else {
      assert s[1..] == a[1..] + [sep] + b;
      assert sep !in a[1..];
      SplitAfterPiece(a[1..], b, sep);
      assert [a[0]] + a[1..] == a;
    }
  }

  /** Splitting a join of separator-free pieces gives back the pieces. */
  lemma {:induction false} SplitJoin(ts: seq<string>, sep: char)
    requires |ts| >= 1
    requires forall i :: 0 <= i < |ts| ==> sep !in ts[i]
    ensures Split(Join(ts, sep), sep) == ts
  {
    if |ts| == 1 {
      SplitNoSeparator(ts[0], sep);
    } else {
      SplitJoin(ts[1..], sep);
      SplitAfterPiece(ts[0], Join(ts[1..], sep), sep);
      assert [ts[0]] + ts[1..] == ts;
    }
  }

  lemma {:induction false} JoinSnoc(ts: seq<string>, u: string, sep: char)
    requires |ts| >= 1
    ensures Join(ts + [u], sep) == Join(ts, sep) + [sep] + u
  {
    if |ts| > 1 {
      assert (ts + [u])[1..] == ts[1..] + [u];
      JoinSnoc(ts[1..], u, sep);
    }
  }

  /** Appending the separator adds one empty piece at the end. */
  lemma {:induction false} SplitTrailingSeparator(s: string, sep: char)
    ensures Split(s + [sep], sep) == Split(s, sep) + [""]
  {
    var ts := Split(s, sep);
    JoinSplit(s, sep);
    JoinSnoc(ts, "", sep);
    assert s + [sep] == Join(ts + [""], sep);
    SplitJoin(ts + [""], sep);
  }
}
